=== FILE: README.md ===
# Admissions fee collection, modelled in Dafny

This project models the payment and fee core of a Django admissions portal
(the `admissions` app of a coaching institute).

- A student submits an admission form. The form validates the phone numbers and
  the chosen batch. The view prices the admission from its fee plan, takes a seat
  in the batch, and creates a Pending payment.
- The student then pays online through Razorpay or PhonePe:
  - `start_payment` creates the gateway order or pay request.
  - Razorpay comes back through the browser redirect, `payment_verify`.
  - PhonePe comes back through its server callback or through an explicit status
    poll.
  - Every PhonePe outcome goes through one reconciliation step. That step maps the
    gateway's words to Pending/Paid/Failed, updates the payment and, on Paid,
    settles the admission and sends a one-shot SMS/WhatsApp notification.
- Staff can also settle payments by hand with the admin action
  "Mark selected payments as Paid".

The model is functional:

- The rows are one immutable value, `Store.Db`. It holds:
  - admissions by id;
  - payments in primary-key order, so `.filter().first()` is the lowest index;
  - batches by id;
  - the next ids to issue.
- Each view is a pure function from the rows, the request and the outside answers
  to the new rows, the view's outcome, and the calls it made (`sent`).
- The outside answers are parameters:
  - gateway replies, each a success value or an error message;
  - channel delivery results;
  - the clock, as `now` and Unix seconds, one reading per request;
  - the settings.
- Hashing and the JSON/base64 codecs are passed in as uninterpreted functions
  (`External.Crypto`, `External.Codec`).

Modules follow the program:

| module | models |
|---|---|
| `Common` | `Option`/`Result`, `.first()`, `.get()` |
| `Text` | string helpers, number printing and parsing |
| `Models` | records, enumerations, batch and fee-plan rules |
| `Store` | the rows and row writes |
| `External` | settings, gateway messages, outbound calls |
| `Signatures` | both gateways' integrity codes |
| `Notify` | payment notification |
| `Reconcile` | status mapping and the reconciliation step |
| `RedirectVerify` | Razorpay redirect |
| `Callback` | PhonePe callback and status poll |
| `Checkout` | start of a payment |
| `Forms` | admission and login forms |
| `Intake` | admission view |
| `Admin` | mark-paid action |
| `SuccessPage` | the page after an admission, and its `paid_at` write |

In these places the model follows what the code does, which a reader may not expect:

- `Paid` is not terminal. A bad redirect signature marks even a Paid payment
  Failed, and so does a Failed gateway report (`Reconcile.FailedReportRegressesPaid`).
- `paid_at` is re-stamped on every Paid outcome, not set once
  (`Reconcile.ReplayOnlyRestampsPaidAt`). The only replay guard is `notified_at`.
- The status vocabularies belong to their own fields. For example,
  `PAYMENT_SUCCESS` as a state maps to Pending (`Reconcile.VocabularyIsPerField`).
- `get_fee` charges the offer price while the offer runs, even when it is dearer
  than the original price. The admission view never does
  (`Intake.GetFeeIgnoresPriceComparison`).

## Model

| member | source | states |
|---|---|---|
| `Common.FirstWhere` | admissions/views.py:284 | the index found satisfies the filter and every earlier row fails it; no index means no row satisfies it |
| `Common.GetSingle` | admissions/models.py:95 | `.get()` finds no row exactly when none matches, raises for several exactly when two distinct rows match, and otherwise returns a matching row |
| `Text.LeadingSpaces` | admissions/views.py:1038 | the count covers whitespace only and stops at the first other character |
| `Text.Strip` | admissions/views.py:1038 | the stripped string is the input with its leading whitespace cut off and then only whitespace cut off the end, and it has no whitespace at either end |
| `Text.TrimLeftCutsLeadingSpaces` | admissions/views.py:1038 | trimming the left end removes exactly the leading whitespace |
| `Text.StripIdempotent` | admissions/views.py:1038 | stripping twice is stripping once |
| `Text.ShowNatRoundTrip` | admissions/views.py:756 | reading back the decimal digits of a number gives the number |
| `Text.ShowNatInjective` | admissions/views.py:756 | two different numbers print differently |
| `Text.ShowNatLength` | admissions/views.py:756 | a number between 10^(k-1) and 10^k prints with exactly k digits |
| `Text.ParseIntReadsDigits` | admissions/forms.py:54 | a string of digits parses as the number it spells |
| `Text.IntegerFieldReadsShowNat` | admissions/forms.py:54 | an integer field reads a printed natural number back as that number |
| `Models.Batch.RemainingSeats` | admissions/models.py:70-76 | remaining seats never exceed total seats, are zero exactly when the batch is full, and add up with the filled seats to the total otherwise |
| `Models.GetFee` | admissions/models.py:94-100 | a fee exists exactly when one plan matches; it is that plan's offer price with True while the offer runs, else its original price with False, with no price comparison |
| `Models.NewAdmission` | admissions/models.py:121-127 | a new admission keeps its id, student and fee, with nothing paid and fee status Pending |
| `Models.NewPayment` | admissions/models.py:146-171 | a new payment is Pending, for its admission and amount, with no gateway, method, ids, response or timestamps |
| `Store.PaymentWithOrder` | admissions/views.py:284 | the payment found carries the order id and is the first such; none found means no payment carries it |
| `Store.PaymentOfAdmission` | admissions/views.py:846 | the payment found belongs to the admission; none found means the admission has no payment |
| `Store.Write` | admissions/views.py:294-307 | saving a payment and its admission keeps the schema invariants and changes no other row |
| `Store.AddPayment` | admissions/views.py:220-224 | inserting the first payment of an admission appends it and keeps the schema invariants |
| `Signatures.PhonePeChecksum` | admissions/views.py:963-966 | the checksum is the digest of payload, path and salt, then `###`, then the salt index |
| `Signatures.CallbackIsPathlessChecksum` | admissions/views.py:969-975 | the callback header is accepted exactly when it equals the outgoing checksum computed with an empty API path |
| `Signatures.CallbackNeedsHeader` | admissions/views.py:970-971 | a missing or empty header never passes |
| `Notify.FormatE164` | admissions/views.py:1037-1042 | a stripped number that starts with `+` is the result; any other is prefixed with the default country code exactly; the result starts with `+` exactly when the number or the country code does |
| `Notify.FormatE164Idempotent` | admissions/views.py:1037-1042 | with a `+` country code, formatting an already formatted number changes nothing |
| `Notify.Without` | admissions/views.py:1088 | removing a character keeps every other character as often as it occurs, and a string without the character is returned unchanged |
| `Notify.WithoutConcat` | admissions/views.py:1088 | removal works piece by piece, so the kept characters stay in their order |
| `Notify.Dispatches` | admissions/views.py:992-995 | one SMS to the number goes out exactly when SMS is configured, and one WhatsApp message to the number without its `+` exactly when WhatsApp is configured, both with the same text, SMS first, and nothing else |
| `Notify.MaybeNotify` | admissions/views.py:978-999 | nothing is sent when notifications are off or already recorded; `notified_at` changes, to now, exactly when a configured channel reports success; nothing else changes |
| `Notify.NotifiesAtMostOnce` | admissions/views.py:981-982 | after a successful notification no later call sends anything or changes the payment |
| `Reconcile.MatchesAnyIsMembership` | admissions/views.py:889-891 | for an upper-case vocabulary, a case-insensitive match is membership of the upper-cased value |
| `Reconcile.MapStatus` | admissions/views.py:888-895 | Paid exactly when the state is COMPLETED/SUCCESS or the code is PAYMENT_SUCCESS/SUCCESS ignoring case; Failed exactly when not Paid and the state is FAILED/ERROR or the code PAYMENT_ERROR/FAILED; Pending otherwise |
| `Reconcile.MapStatusIgnoresCase` | admissions/views.py:889-890 | the mapping only depends on the upper-cased state and code |
| `Reconcile.VocabularyIsPerField` | admissions/views.py:891-893 | a success code given as a state, a success state given as a code, or ERROR as a code, maps to Pending |
| `Reconcile.UpdateFromPhonePe` | admissions/views.py:862-885 | status becomes the mapped one; gateway, payment id, reference and response are overwritten; `paid_at` and the admission change and a notification is tried only on Paid |
| `Reconcile.ReplayOnlyRestampsPaidAt` | admissions/views.py:876-885 | replaying a report leaves payment and admission as they were except a re-stamped `paid_at`, and sends nothing once a notification is recorded |
| `Reconcile.FailedReportRegressesPaid` | admissions/views.py:874-875 | a FAILED report turns a Paid payment Failed while its admission stays Paid |
| `Reconcile.ReconcileAt` | admissions/views.py:878-884 | the step writes exactly the updated payment and its admission and keeps the schema invariants |
| `Reconcile.ReconcileKeepsOrders` | admissions/views.py:878 | a reconciliation step never changes an order id |
| `Reconcile.ReconcileTwice` | admissions/views.py:862-885 | reconciling the same report twice keeps the admission and every recorded notification stamp, and the second run sends nothing once a notification is recorded |
| `RedirectVerify.PaymentVerifyAsWritten` | admissions/views.py:279-312 | an unknown order id writes nothing; a non-ASCII signature makes the digest comparison raise, answering 500 with no write; a bad signature marks the payment Failed with the posted ids and leaves the admission, `paid_at` and notifications alone; a good one marks it Paid now, settles the admission, and sends the channel dispatches unless notifications are off or already recorded, stamping `notified_at` with now exactly when a channel succeeds |
| `RedirectVerify.EmptyOrderIdFailsBlankPayment` | admissions/views.py:280-294 | an empty posted order id marks the first payment with a blank order id Failed, even a Paid one |
| `RedirectVerify.PaymentVerify` | admissions/views.py:279-312 | with an empty order id treated as unknown, no payment without an order id is ever written |
| `RedirectVerify.SucceedsExactlyWhenSigned` | admissions/views.py:279-300 | the redirect succeeds exactly when the order id is non-empty and known, the payment id, signature and secret are non-empty, and the signature is the ASCII HMAC of `order_id`, a bar and `payment_id` |
| `RedirectVerify.ForgedSignatureSettlesNothing` | admissions/views.py:289-296 | a signature other than the HMAC of the posted ids settles no admission, stamps no `paid_at` and sends nothing |
| `Callback.CheckCallback` | admissions/views.py:808-835 | the six 400 answers come in the code's order, a header or salt index that is not ASCII makes the checked comparison raise (500), and a callback passes only with a payload, configuration, valid header when checked, decodable report and transaction id |
| `Callback.AcceptedCallbackIsSigned` | admissions/views.py:822-825 | with verification on, an accepted callback carried exactly the path-less checksum of its payload |
| `Callback.PhonePeCallback` | admissions/views.py:807-842 | a rejection or an unknown transaction writes nothing and sends nothing; a known one answers 200 and applies the reconciliation step to that payment |
| `Callback.RejectedCallbackWritesNothing` | admissions/views.py:811-839 | every answer other than 200 leaves the rows alone and sends nothing |
| `Callback.SameOrdersSameLookup` | admissions/views.py:837 | lookups by order id are unchanged by a write that keeps every order id |
| `Callback.DuplicateCallbackIsReplay` | admissions/views.py:837-842 | a second delivery of the same callback answers the same, leaves the admissions as the first left them, keeps recorded notification stamps and sends no second notification |
| `Callback.PhonePeStatusCheck` | admissions/views.py:845-859 | no payment or no order id does nothing; missing settings fail without a call; otherwise one signed status GET is made and a reply is reconciled into that payment |
| `Checkout.PhonePeOrderId` | admissions/views.py:756 | a fresh merchant transaction id starts with `ADM` |
| `Checkout.PhonePeOrderIdInjective` | admissions/views.py:756 | while the clock has ten digits, two fresh ids coincide only for the same admission in the same second |
| `Checkout.EnsurePayment` | admissions/views.py:217-224 | the admission's payment is found or created Pending for the full fee, and only then is a row added |
| `Checkout.PayRequestFor` | admissions/views.py:758-776 | the pay request carries the order id, the fee in paise and the student id, which reads back as that id |
| `Checkout.StartPhonePe` | admissions/views.py:750-802 | missing settings fail without a call; one signed pay request is sent; an existing order id is kept; on a reply the payment is saved Pending for the fee, and the outcome is the redirect URL or the no-URL error |
| `Checkout.StartRazorpay` | admissions/views.py:243-275 | missing keys fail without a call; one order for the fee in paise is created; on a reply the payment is saved Pending with the gateway's order id |
| `Checkout.GatewayStart` | admissions/views.py:234-243 | PhonePe is started when configured and Razorpay otherwise; only the given payment can change |
| `Checkout.SameOwnersSameLookup` | admissions/views.py:218 | lookups by admission are unchanged by a write that keeps every payment's admission |
| `Checkout.StartPayment` | admissions/views.py:216-275 | no admission changes; a Paid payment is left alone without a call; a zero fee makes no call; at most one call is made; a checkout or redirect leaves the payment Pending on its gateway for the fee |
| `Checkout.EnsuredPaymentStatus` | admissions/views.py:218-228 | the payment handed on is Paid exactly when the admission already had a Paid payment |
| `Checkout.StartPaymentReachesGateway` | admissions/views.py:216-275 | once the admission exists, is unpaid and has a positive fee, `start_payment` is exactly the configured gateway's start on the found or newly created payment, so it asks for the fee in paise and reuses a PhonePe order id |
| `Checkout.StartPaymentWithoutFee` | admissions/views.py:216-232 | an existing, unpaid admission with a zero fee is answered "fee not set" with no call, and the only write is the payment created when none existed |
| `Checkout.PhonePeRetryReusesOrderId` | admissions/views.py:755-756 | a retried PhonePe start sends the same merchant transaction id whatever the clock says |
| `Forms.CleanChar` | admissions/forms.py:14-20 | a blank value is an error only if required; otherwise the stripped value is accepted exactly when every validator passes, and the errors are exactly those of the failing validators |
| `Forms.PhoneAcceptedIffTenDigits` | admissions/forms.py:7-10 | a phone field is accepted exactly when the stripped value is ten digits |
| `Forms.PhoneCleanIdempotent` | admissions/forms.py:18-19 | cleaning an accepted phone number again gives the same result |
| `Forms.CleanChoice` | admissions/forms.py:15-17 | an empty choice is required, an unknown one invalid, and an accepted one is what the choice value reads as |
| `Forms.ChoiceValuesRoundTrip` | admissions/models.py:6-19 | each choice field reads back exactly the stored values of its enumeration |
| `Forms.CleanBatchChoice` | admissions/forms.py:21 | an empty batch is no batch; otherwise it is accepted exactly when it names an offered batch |
| `Forms.CleanBatch` | admissions/forms.py:33-37 | a chosen batch is refused as full exactly when it is full; an accepted batch exists and has room |
| `Forms.CheckBatchMatches` | admissions/forms.py:39-50 | a surviving batch keeps exactly when class and medium cleaned and equal the batch's, otherwise it carries only the mismatch error |
| `Forms.CleanAdmission` | admissions/forms.py:13-50 | every field is cleaned by its own rule, and the batch by the full-batch then the mismatch check |
| `Forms.ValidAdmissionMeetsRules` | admissions/forms.py:7-50 | a valid form has ten-digit phones, a name of at most 100 characters, and any batch exists, has room and matches class and medium |
| `Forms.NoBatchNoBatchError` | admissions/forms.py:44 | leaving the batch empty never raises a batch error |
| `Forms.FullBatchReportsOnlyFull` | admissions/forms.py:35-36 | a full batch reports only that it is full |
| `Forms.OpenBatchErrorIffMismatch` | admissions/forms.py:44-49 | a batch with room gets an error exactly when its class or medium differs from the chosen ones |
| `Forms.BatchWidget` | admissions/forms.py:26-31 | the batch field is hidden exactly when no batch exists |
| `Forms.CleanInteger` | admissions/forms.py:54 | an empty id is required; otherwise it is accepted exactly when it reads as an integer, and its value is that integer |
| `Forms.CleanLogin` | admissions/forms.py:53-55 | the login form is valid exactly when the id reads as an integer and the stripped mobile is ten digits |
| `Forms.TenDigitsCleanToThemselves` | admissions/forms.py:55 | ten digits clean to themselves |
| `Forms.PrintedIdCleansToItself` | admissions/forms.py:54 | a printed admission id cleans to itself |
| `Forms.LoginReadsPrintedId` | admissions/forms.py:53-55 | a printed admission id and a ten-digit mobile log in as themselves |
| `Intake.OfferFee` | admissions/views.py:113-117 | the offer applies exactly while it runs and is cheaper; the fee is then the offer price, else the original price, never above it |
| `Intake.GetFeeIgnoresPriceComparison` | admissions/models.py:98-99 | a plan whose running offer is dearer makes `get_fee` charge the offer while the view charges the original price |
| `Intake.GetFeeAgreesOnCheaperOffers` | admissions/models.py:94-100 | when the offer is not dearer, `get_fee` and the view charge the same |
| `Intake.TakeSeat` | admissions/views.py:143-145 | joining a batch adds exactly one filled seat and one fewer remaining seat, nothing else |
| `Intake.Admit` | admissions/views.py:102-149 | an invalid form writes nothing; two matching plans write nothing; otherwise the rows are written for fee 0 without a plan or the offer fee with one, in a batch that had room |
| `Intake.Enrol` | admissions/views.py:123-145 | a new student, admission and Pending payment with the same fee are created under fresh ids, and the chosen batch gains one seat |
| `Intake.EnrolKeepsSeatsWithinCapacity` | admissions/views.py:143-145 | taking a seat in a batch with room keeps every batch within capacity |
| `Intake.AdmitKeepsSeatsWithinCapacity` | admissions/views.py:102-149 | an admission never overfills a batch |
| `Intake.IntakeFeeAtMostOriginal` | admissions/views.py:106-117 | a new admission's fee is at most its plan's original price, below it when the offer applied, and 0 without a plan |
| `Intake.EnrolFee` | admissions/views.py:130-142 | the admission and its Pending payment carry the given fee, and the admission is priced under the plan of its own class and medium |
| `Intake.EnrolledRows` | admissions/views.py:130-142 | the new admission and the last payment carry the given fee, class and medium |
| `Admin.Marked` | admissions/admin.py:72-76 | a marked payment is Paid, keeps an existing payment time, gets one otherwise, and no other field changes |
| `Admin.MarkedIdempotent` | admissions/admin.py:72-76 | marking twice is marking once, whatever the clock says |
| `Admin.SelectedOwner` | admissions/admin.py:77 | with one payment per admission, an admission is reached exactly when its payment is selected |
| `Admin.MarkPayments` | admissions/admin.py:72-76 | every selected payment is marked and every other payment is unchanged |
| `Admin.SettleAdmissions` | admissions/admin.py:77-80 | each selected payment's admission is settled for that payment's amount and every other admission is unchanged |
| `Admin.MarkPaid` | admissions/admin.py:70-80 | the action marks exactly the selected payments, settles exactly their admissions, and keeps the schema invariants and the batches |
| `Admin.SecondRunSamePayments` | admissions/admin.py:72-76 | a second run leaves every payment as the first left it |
| `Admin.SecondRunSameAdmission` | admissions/admin.py:77-80 | a second run leaves every admission as the first left it |
| `Admin.MarkPaidIdempotent` | admissions/admin.py:70-80 | running the action twice on the same selection gives the rows one run gives |
| `Admin.MarkPaidKeepsStamps` | admissions/admin.py:74-76 | an existing payment time is kept and the notification stamp is never touched |
| `SuccessPage.AdmissionSuccess` | admissions/views.py:163-185 | an unknown admission writes nothing; otherwise only the admission's payment can change, only in `paid_at`, and only from none to now when it is Paid, so afterwards a Paid payment has a `paid_at` |
| `SuccessPage.SuccessPageIdempotent` | admissions/views.py:182-184 | showing the page a second time changes nothing, whatever the clock |
| `SuccessPage.StampedPaymentsUntouched` | admissions/views.py:182-184 | when every Paid payment already has a `paid_at`, the page writes nothing |

## Left out

- Receipt PDF rendering (`receipt_pdf`, `_invoice_asset`): page layout, floating-point geometry and file checks.
- Outbound HTTP: each call is a `sent` entry and its answer is a parameter. So `_create_razorpay_order`, `_phonepe_post_request`, `_phonepe_fetch_status`, `_send_sms_twilio` and `_send_whatsapp_cloud` appear only through their results.
- The Razorpay basic-auth header and the request bodies' JSON layout. The Razorpay request is modelled as amount and receipt only.
- SHA-256 and HMAC are uninterpreted functions. `hmac.compare_digest` is modelled as `==`, plus the `TypeError` it raises on a non-ASCII `str`; its constant timing is not expressible.
- JSON and base64 decoding are uninterpreted functions that answer `None` where Python raises.
  - A report is modelled with string-or-missing fields only, so non-string JSON values and a non-object `data` are not modelled.
  - A non-UTF-8 body is not modelled.
  - A gateway reply that is not JSON, which the code lets escape as an uncaught error, is not modelled.
- `Codec.dumpPayReply` and `Codec.dumpReport` see only the modelled part of the document: the pay reply's redirect URL, and the report's modelled fields. The code stores `json.dumps` of the whole decoded document.
- Strings are ASCII for text handling: `upper`/`lower`/`strip` and digit tests do not model Unicode case mapping, Unicode spaces, Unicode digits or the underscores Python's `int()` accepts.
- `Text.IntegerFieldReadsShowNat`: the integer field is proved to read back natural numbers only. Negative ids cannot name an admission.
- The `PAYMENT_GATEWAY` setting is an enumeration. Any value other than PhonePe takes the Razorpay path, as in the code.
- Transactions (`transaction.atomic`) and concurrency: every view runs alone on the rows. Races between duplicate callbacks and polls are not modelled.
- Django's messages, redirects, templates and `render` contexts. Outcomes are datatypes instead.
- The views `home`, `student_dashboard` and `student_logout`, and the session part of `student_login`: they render or store session data and do not change payments or fees. The login form itself is modelled. Of `admission_success` only the `paid_at` write is modelled (`SuccessPage.AdmissionSuccess`), not the UPI link or the page.
- `start_payment` on an admission id that does not exist raises `DoesNotExist` (a 500 response). It is modelled as the outcome `AdmissionMissing` with no writes.
- The admin action's queryset order (`-created_at`) and the admin list/search configuration. A selection is a sequence of payment indices in any order, and the result does not depend on the order.
- `Admin.MarkPaid` models the loop's payment saves and admission saves as two passes. This is equivalent because marking never changes a payment's admission or amount.
- Exceptions other than the ones the code catches:
  - `Notify.MaybeNotify` assumes each channel either answers or fails with `URLError`. A read timeout or `RemoteDisconnected` escapes `except URLError`; WhatsApp is then not tried, `notified_at` stays unset, and the view answers 500 after its Paid and admission saves. So a redelivered callback tries the SMS again.
  - `Checkout.StartPhonePe`, `Checkout.StartRazorpay` and `Callback.PhonePeStatusCheck` take the gateway reply as a success value or an error message. An exception that is neither `HTTPError` nor `URLError` escapes as a 500 instead, and is not modelled.
  - `Callback.CheckCallback` reads a body that is JSON but not an object as "Invalid payload". The code raises on `data.get` (500) instead.
  - `Callback.CheckCallback` cannot see a `response` that is truthy but not a string, such as `{"response": 5}`. The header check stringifies it, and `base64.b64decode` then raises `TypeError` (500). It passes that check when verification is off or the header matches.
  - `Callback.CheckCallback` answers "Invalid response data" or accepts a verified `response` whose decoded JSON is not an object, such as the base64 of `[]`. The code raises on `decoded.get` (500) instead.
  - None of these 500 answers writes a row or sends anything.
- One instant stands for every clock read of a request:
  - `RedirectVerify.PaymentVerifyAsWritten` and `Reconcile.UpdateFromPhonePe` take one `now` for both `paid_at` and `notified_at`. The code reads the clock again for `notified_at`, after up to two channel calls that may each wait 30 seconds. So the contracts' equal stamps are a property of the model, not of the code.
  - `Admin.MarkPaid` stamps every selected payment with the same `now`. The code reads the clock once per row.
- URL routing (`urls.py`) and URL building. The success and callback URLs are parameters (`Checkout.SiteUrls`).

## Findings

| source | as written | input that shows it | evidently intended | confidence | as-written member | corrected member |
|---|---|---|---|---|---|---|
| admissions/views.py:280-294 | the payment is looked up by the posted `razorpay_order_id` even when it is empty, and a failed signature check then marks it Failed | a POST with no `razorpay_order_id` while the first payment without an order id (created at intake, or settled in cash by the admin action) is Paid: that payment becomes Failed | an empty order id finds no payment ("Payment record not found") | not executed | `RedirectVerify.PaymentVerifyAsWritten` with `RedirectVerify.EmptyOrderIdFailsBlankPayment` | `RedirectVerify.PaymentVerify` |

=== FILE: admin.dfy ===
/** The admin action "Mark selected payments as Paid" (`PaymentAdmin.mark_paid`,
    admissions/admin.py): a second writer of the Paid transition, for cash
    and offline payments. It sends no notification. */
module Admin {
  import opened Common
  import opened Models
  import opened Store

  /** A payment once the action has passed over it: Paid, and stamped with
      `now` only if it had no payment time yet. */
  function Marked(p: Payment, now: Instant): (q: Payment)
    ensures q.status == Paid && q.paidAt.Some?
    ensures p.paidAt.Some? ==> q.paidAt == p.paidAt
    ensures q.(status := p.status, paidAt := p.paidAt) == p
  {
    p.(status := Paid, paidAt := if p.paidAt.Some? then p.paidAt else Some(now))
  }

  /** Marking is idempotent whatever the clock reads the second time. */
  lemma MarkedIdempotent(p: Payment, now1: Instant, now2: Instant)
    ensures Marked(Marked(p, now1), now2) == Marked(p, now1)
  {
  }

  /** The selected rows: existing payments, each with its admission. */
  predicate Selection(db: Db, selected: seq<nat>) {
    forall n :: 0 <= n < |selected| ==> selected[n] < |db.payments| && db.payments[selected[n]].admission in db.admissions
  }

  /** Whether some selected payment belongs to admission `a`. */
  predicate SelectedAdmission(ps: seq<Payment>, selected: seq<nat>, a: nat)
    requires forall n :: 0 <= n < |selected| ==> selected[n] < |ps|
  {
    exists n :: 0 <= n < |selected| && ps[selected[n]].admission == a
  }

  lemma InSelection(selected: seq<nat>, j: nat)
    requires |selected| > 0
    ensures j in selected <==> j == selected[0] || j in selected[1..]
  {
    assert selected == [selected[0]] + selected[1..];
  }

  lemma SelectedAdmissionStep(ps: seq<Payment>, selected: seq<nat>, b: nat)
    requires |selected| > 0 && forall n :: 0 <= n < |selected| ==> selected[n] < |ps|
    ensures SelectedAdmission(ps, selected, b) <==> ps[selected[0]].admission == b || SelectedAdmission(ps, selected[1..], b)
  {
    var rest := selected[1..];
    if SelectedAdmission(ps, rest, b) {
      var n :| 0 <= n < |rest| && ps[rest[n]].admission == b;
      assert selected[n + 1] == rest[n];
    }
    if SelectedAdmission(ps, selected, b) && ps[selected[0]].admission != b {
      var n :| 0 <= n < |selected| && ps[selected[n]].admission == b;
      assert rest[n - 1] == selected[n];
    }
  }

  /** With one payment per admission, a payment's admission is selected
      exactly when the payment is. */
  lemma SelectedOwner(ps: seq<Payment>, selected: seq<nat>, j: nat)
    requires j < |ps| && forall n :: 0 <= n < |selected| ==> selected[n] < |ps|
    requires forall i, k :: 0 <= i < k < |ps| ==> ps[i].admission != ps[k].admission
    ensures SelectedAdmission(ps, selected, ps[j].admission) <==> j in selected
  {
    if SelectedAdmission(ps, selected, ps[j].admission) {
      var n :| 0 <= n < |selected| && ps[selected[n]].admission == ps[j].admission;
      assert selected[n] == j;
    }
  }

  /** The payment saves of the loop, in selection order. */
  function MarkPayments(ps: seq<Payment>, selected: seq<nat>, now: Instant): (r: seq<Payment>)
    requires forall n :: 0 <= n < |selected| ==> selected[n] < |ps|
    ensures |r| == |ps|
    ensures forall j :: 0 <= j < |ps| ==> r[j] == if j in selected then Marked(ps[j], now) else ps[j]
    decreases |selected|
  {
    if |selected| == 0 then ps
    else
      var i := selected[0];
      var ps1 := ps[i := Marked(ps[i], now)];
      var r := MarkPayments(ps1, selected[1..], now);
      assert forall j :: j in selected <==> j == i || j in selected[1..] by {
        forall j { InSelection(selected, j); }
      }
      MarkedIdempotent(ps[i], now, now);
      r
  }

  /** The admission saves of the loop: each selected payment's admission is
      settled for that payment's amount. */
  function SettleAdmissions(adm: map<nat, Admission>, ps: seq<Payment>, selected: seq<nat>): (r: map<nat, Admission>)
    requires forall n :: 0 <= n < |selected| ==> selected[n] < |ps| && ps[selected[n]].admission in adm
    requires forall i, j :: 0 <= i < j < |ps| ==> ps[i].admission != ps[j].admission
    ensures r.Keys == adm.Keys
    ensures forall a :: a in adm ==> r[a].id == adm[a].id && r[a].batch == adm[a].batch
    ensures forall a :: a in adm && !SelectedAdmission(ps, selected, a) ==> r[a] == adm[a]
    ensures forall j :: 0 <= j < |ps| && j in selected ==> r[ps[j].admission] == Settled(adm[ps[j].admission], ps[j].amount)
    decreases |selected|
  {
    if |selected| == 0 then adm
    else
      var i := selected[0];
      var rest := selected[1..];
      var a := ps[i].admission;
      var adm1 := adm[a := Settled(adm[a], ps[i].amount)];
      var r := SettleAdmissions(adm1, ps, rest);
      assert forall j :: j in selected <==> j == i || j in rest by {
        forall j { InSelection(selected, j); }
      }
      assert forall b :: SelectedAdmission(ps, selected, b) <==> b == a || SelectedAdmission(ps, rest, b) by {
        forall b { SelectedAdmissionStep(ps, selected, b); }
      }
      assert i !in rest ==> r[a] == adm1[a] by {
        SelectedOwner(ps, rest, i);
      }
      r
  }

  /** `mark_paid` over the selected payments. Marking never changes a
      payment's admission or amount, so the loop's two saves per row are
      the payment saves followed by the admission saves. */
  function MarkPaid(db: Db, selected: seq<nat>, now: Instant): (r: Db)
    requires Valid(db) && Selection(db, selected)
    ensures Valid(r)
    ensures |r.payments| == |db.payments| && r.admissions.Keys == db.admissions.Keys
    ensures r.batches == db.batches && r.nextAdmissionId == db.nextAdmissionId && r.nextStudentId == db.nextStudentId
    ensures forall j :: 0 <= j < |db.payments| ==>
      r.payments[j] == if j in selected then Marked(db.payments[j], now) else db.payments[j]
    ensures forall j :: 0 <= j < |db.payments| && j in selected ==>
      r.admissions[db.payments[j].admission] == Settled(db.admissions[db.payments[j].admission], db.payments[j].amount)
    ensures forall a :: a in db.admissions && !SelectedAdmission(db.payments, selected, a) ==> r.admissions[a] == db.admissions[a]
  {
    var ps := MarkPayments(db.payments, selected, now);
    var adm := SettleAdmissions(db.admissions, db.payments, selected);
    assert forall j :: 0 <= j < |ps| ==> ps[j].admission == db.payments[j].admission;
    db.(payments := ps, admissions := adm)
  }

  /** The selection still names existing payments with their admissions after a run. */
  lemma SecondRunSelection(db: Db, selected: seq<nat>, now: Instant)
    requires Valid(db) && Selection(db, selected)
    ensures Selection(MarkPaid(db, selected, now), selected)
  {
    var r1 := MarkPaid(db, selected, now);
    forall n | 0 <= n < |selected|
      ensures r1.payments[selected[n]].admission in r1.admissions
    {
      var j := selected[n];
      assert r1.payments[j].admission == db.payments[j].admission;
    }
  }

  /** A second run leaves every payment as the first run left it. */
  lemma SecondRunSamePayments(db: Db, selected: seq<nat>, now1: Instant, now2: Instant)
    requires Valid(db) && Selection(db, selected)
    requires Selection(MarkPaid(db, selected, now1), selected)
    ensures MarkPaid(MarkPaid(db, selected, now1), selected, now2).payments == MarkPaid(db, selected, now1).payments
  {
    var r1 := MarkPaid(db, selected, now1);
    var r2 := MarkPaid(r1, selected, now2);
    forall j | 0 <= j < |r1.payments|
      ensures r2.payments[j] == r1.payments[j]
    {
      MarkedIdempotent(db.payments[j], now1, now2);
    }
  }

  /** A second run does not change an admission the first run wrote or left alone. */
  lemma SecondRunSameAdmission(db: Db, selected: seq<nat>, now1: Instant, now2: Instant, a: nat)
    requires Valid(db) && Selection(db, selected) && a in db.admissions
    requires Selection(MarkPaid(db, selected, now1), selected)
    ensures MarkPaid(MarkPaid(db, selected, now1), selected, now2).admissions[a] == MarkPaid(db, selected, now1).admissions[a]
  {
    var r1 := MarkPaid(db, selected, now1);
    var r2 := MarkPaid(r1, selected, now2);
    if SelectedAdmission(r1.payments, selected, a) {
      var n :| 0 <= n < |selected| && r1.payments[selected[n]].admission == a;
      var j := selected[n];
      assert j in selected;
      assert r1.payments[j] == Marked(db.payments[j], now1);
    }
  }

  /** Running the action twice on the same selection leaves the rows as one
      run left them, even at a later time. */
  lemma MarkPaidIdempotent(db: Db, selected: seq<nat>, now1: Instant, now2: Instant)
    requires Valid(db) && Selection(db, selected)
    ensures Selection(MarkPaid(db, selected, now1), selected)
    ensures MarkPaid(MarkPaid(db, selected, now1), selected, now2) == MarkPaid(db, selected, now1)
  {
    var r1 := MarkPaid(db, selected, now1);
    SecondRunSelection(db, selected, now1);
    var r2 := MarkPaid(r1, selected, now2);
    SecondRunSamePayments(db, selected, now1, now2);
    forall a | a in r1.admissions
      ensures r2.admissions[a] == r1.admissions[a]
    {
      SecondRunSameAdmission(db, selected, now1, now2, a);
    }
    assert r2.admissions == r1.admissions;
  }

  /** A payment that was already Paid with a payment time keeps that time, and
      its notification stamp is never touched. */
  lemma MarkPaidKeepsStamps(db: Db, selected: seq<nat>, now: Instant, j: nat)
    requires Valid(db) && Selection(db, selected) && j < |db.payments|
    ensures var r := MarkPaid(db, selected, now);
      && r.payments[j].notifiedAt == db.payments[j].notifiedAt
      && (db.payments[j].paidAt.Some? ==> r.payments[j].paidAt == db.payments[j].paidAt)
  {
  }
}

=== FILE: callback.dfy ===
/** PhonePe's server-to-server callback and the explicit status poll
    (`phonepe_callback`, `phonepe_status_check` and `_phonepe_fetch_status`,
    admissions/views.py). Both end in `UpdateFromPhonePe`. */
module Callback {
  import opened Common
  import opened Models
  import opened Store
  import opened External
  import opened Signatures
  import opened Reconcile

  /** The raw POST body and the `X-VERIFY` header (header names are case-insensitive). */
  datatype CallbackRequest = CallbackRequest(body: string, xVerify: Option<string>)

  datatype HttpReply = HttpReply(status: nat, text: string)

  /** Django's answer to an exception the view does not catch; the page's text is not modelled. */
  const ServerErrorReply: HttpReply := HttpReply(500, "")

  /** Outcome of the checks run before any row is read. */
  datatype Checked = Rejected(reply: HttpReply) | Accepted(responseB64: string, report: Report, transactionId: string)

  /** The rejections of `phonepe_callback`, in the order the code tries them,
      including the error a non-ASCII header or salt index raises in the
      digest comparison. */
  function CheckCallback(s: Settings, crypto: Crypto, codec: Codec, req: CallbackRequest): (r: Checked)
    ensures codec.parseEnvelope(req.body).None? ==> r == Rejected(HttpReply(400, "Invalid payload"))
    ensures codec.parseEnvelope(req.body).Some? ==>
      var response := codec.parseEnvelope(req.body).value.response;
      && (!Truthy(response) ==> r == Rejected(HttpReply(400, "Missing response")))
      && (Truthy(response) && !CallbackConfigured(s) ==> r == Rejected(HttpReply(400, "PhonePe not configured")))
      && (Truthy(response) && CallbackConfigured(s) && s.phonepeVerifyCallback &&
          CallbackCheckRaises(crypto, response.value, req.xVerify, s.phonepeSaltKey, s.phonepeSaltIndex) ==>
            r == Rejected(ServerErrorReply))
      && (Truthy(response) && CallbackConfigured(s) && s.phonepeVerifyCallback &&
          !CallbackCheckRaises(crypto, response.value, req.xVerify, s.phonepeSaltKey, s.phonepeSaltIndex) &&
          !VerifyPhonePeCallback(crypto, response.value, req.xVerify, s.phonepeSaltKey, s.phonepeSaltIndex) ==>
            r == Rejected(HttpReply(400, "Signature mismatch")))
      && (Truthy(response) && CallbackConfigured(s) &&
          (s.phonepeVerifyCallback ==>
             !CallbackCheckRaises(crypto, response.value, req.xVerify, s.phonepeSaltKey, s.phonepeSaltIndex) &&
             VerifyPhonePeCallback(crypto, response.value, req.xVerify, s.phonepeSaltKey, s.phonepeSaltIndex)) ==>
            && (codec.decodeReport(response.value).None? ==> r == Rejected(HttpReply(400, "Invalid response data")))
            && (codec.decodeReport(response.value).Some? ==>
                  var rep := codec.decodeReport(response.value).value;
                  && (!Truthy(rep.data.merchantTransactionId) ==> r == Rejected(HttpReply(400, "Missing transaction")))
                  && (Truthy(rep.data.merchantTransactionId) ==>
                        r == Accepted(response.value, rep, rep.data.merchantTransactionId.value))))
  {
    match codec.parseEnvelope(req.body)
    case None => Rejected(HttpReply(400, "Invalid payload"))
    case Some(envelope) =>
      if !Truthy(envelope.response) then Rejected(HttpReply(400, "Missing response"))
      else if !CallbackConfigured(s) then Rejected(HttpReply(400, "PhonePe not configured"))
      else if s.phonepeVerifyCallback &&
              CallbackCheckRaises(crypto, envelope.response.value, req.xVerify, s.phonepeSaltKey, s.phonepeSaltIndex) then
        Rejected(ServerErrorReply)
      else if s.phonepeVerifyCallback &&
              !VerifyPhonePeCallback(crypto, envelope.response.value, req.xVerify, s.phonepeSaltKey, s.phonepeSaltIndex) then
        Rejected(HttpReply(400, "Signature mismatch"))
      else
        match codec.decodeReport(envelope.response.value)
        case None => Rejected(HttpReply(400, "Invalid response data"))
        case Some(rep) =>
          if !Truthy(rep.data.merchantTransactionId) then Rejected(HttpReply(400, "Missing transaction"))
          else Accepted(envelope.response.value, rep, rep.data.merchantTransactionId.value)
  }

  /** With verification on, an accepted callback carried exactly the checksum
      of its base64 payload and the salt key, with no API path. */
  lemma AcceptedCallbackIsSigned(s: Settings, crypto: Crypto, codec: Codec, req: CallbackRequest)
    requires s.phonepeVerifyCallback
    requires CheckCallback(s, crypto, codec, req).Accepted?
    ensures var c := CheckCallback(s, crypto, codec, req);
      req.xVerify == Some(PhonePeChecksum(crypto, c.responseB64, "", s.phonepeSaltKey, s.phonepeSaltIndex))
  {
    var c := CheckCallback(s, crypto, codec, req);
    CallbackIsPathlessChecksum(crypto, c.responseB64, req.xVerify, s.phonepeSaltKey, s.phonepeSaltIndex);
  }

  /** `phonepe_callback` */
  function PhonePeCallback(s: Settings, crypto: Crypto, codec: Codec, db: Db, req: CallbackRequest, now: Instant, d: Delivery): (r: Step<HttpReply>)
    requires Valid(db)
    ensures Valid(r.db)
    ensures CheckCallback(s, crypto, codec, req).Rejected? ==>
      r == Step(db, CheckCallback(s, crypto, codec, req).reply, [])
    ensures CheckCallback(s, crypto, codec, req).Accepted? ==>
      var c := CheckCallback(s, crypto, codec, req);
      match PaymentWithOrder(db, c.transactionId)
      case None => r == Step(db, HttpReply(404, "Payment not found"), [])
      case Some(i) =>
        && r.outcome == HttpReply(200, "OK")
        && (r.db, r.sent) == ReconcileAt(s, codec.dumpReport, db, i, c.report, now, d)
  {
    match CheckCallback(s, crypto, codec, req)
    case Rejected(reply) => Step(db, reply, [])
    case Accepted(_, rep, txn) =>
      match PaymentWithOrder(db, txn)
      case None => Step(db, HttpReply(404, "Payment not found"), [])
      case Some(i) =>
        var (db2, sent) := ReconcileAt(s, codec.dumpReport, db, i, rep, now, d);
        Step(db2, HttpReply(200, "OK"), sent)
  }

  /** Any answer other than 200 leaves every row alone and sends nothing. */
  lemma RejectedCallbackWritesNothing(s: Settings, crypto: Crypto, codec: Codec, db: Db, req: CallbackRequest, now: Instant, d: Delivery)
    requires Valid(db)
    ensures var r := PhonePeCallback(s, crypto, codec, db, req, now, d);
      r.outcome.status != 200 ==> r.db == db && r.sent == []
  {
  }

  /** Lookup by order id is unaffected by a step that keeps every order id. */
  lemma SameOrdersSameLookup(db: Db, db2: Db, orderId: string)
    requires |db2.payments| == |db.payments|
    requires forall j :: 0 <= j < |db.payments| ==> db2.payments[j].orderId == db.payments[j].orderId
    ensures PaymentWithOrder(db2, orderId) == PaymentWithOrder(db, orderId)
  {
  }

  /** A duplicate delivery of an accepted callback finds the same payment,
      answers the same, leaves the admission as the first delivery left it,
      and sends no second notification once one was recorded. */
  lemma DuplicateCallbackIsReplay(s: Settings, crypto: Crypto, codec: Codec, db: Db, req: CallbackRequest,
                                  now1: Instant, d1: Delivery, now2: Instant, d2: Delivery)
    requires Valid(db)
    ensures
      var r1 := PhonePeCallback(s, crypto, codec, db, req, now1, d1);
      var r2 := PhonePeCallback(s, crypto, codec, r1.db, req, now2, d2);
      && r2.outcome == r1.outcome
      && r2.db.admissions == r1.db.admissions
      && (forall j :: 0 <= j < |r1.db.payments| && r1.db.payments[j].notifiedAt.Some? ==>
            j < |r2.db.payments| && r2.db.payments[j].notifiedAt == r1.db.payments[j].notifiedAt)
      && (r1.outcome.status == 200 ==>
            var i := PaymentWithOrder(db, CheckCallback(s, crypto, codec, req).transactionId).value;
            r1.db.payments[i].notifiedAt.Some? ==> r2.sent == [])
  {
    var c := CheckCallback(s, crypto, codec, req);
    if c.Accepted? {
      var r1 := PhonePeCallback(s, crypto, codec, db, req, now1, d1);
      match PaymentWithOrder(db, c.transactionId)
      case None =>
      case Some(i) =>
        ReconcileKeepsOrders(s, codec.dumpReport, db, i, c.report, now1, d1);
        SameOrdersSameLookup(db, r1.db, c.transactionId);
        ReconcileTwice(s, codec.dumpReport, db, i, c.report, now1, d1, now2, d2);
    }
  }

  datatype PollOutcome = NoPhonePePayment | PollError(message: string) | StatusUpdated

  const StatusPathPrefix: string := "/pg/v1/status/"

  /** `phonepe_status_check`: fetch the gateway's view of the admission's
      payment and reconcile it. `reply` is what the status request returns. */
  function PhonePeStatusCheck(s: Settings, crypto: Crypto, codec: Codec, db: Db, admissionId: nat,
                              reply: Result<Report>, now: Instant, d: Delivery): (r: Step<PollOutcome>)
    requires Valid(db)
    ensures Valid(r.db)
    ensures PaymentOfAdmission(db, admissionId).None? ==> r == Step(db, NoPhonePePayment, [])
    ensures PaymentOfAdmission(db, admissionId).Some? ==>
      var i := PaymentOfAdmission(db, admissionId).value;
      var p := db.payments[i];
      var path := StatusPathPrefix + s.phonepeMerchantId + "/" + p.orderId;
      var call := PhonePeStatusGet(s.phonepeBaseUrl + path,
                                   PhonePeChecksum(crypto, "", path, s.phonepeSaltKey, s.phonepeSaltIndex),
                                   s.phonepeMerchantId);
      && (p.orderId == "" ==> r == Step(db, NoPhonePePayment, []))
      && (p.orderId != "" && !PhonePeReady(s) ==> r == Step(db, PollError("PhonePe settings are missing in settings.py."), []))
      && (p.orderId != "" && PhonePeReady(s) && reply.Err? ==> r == Step(db, PollError(reply.message), [call]))
      && (p.orderId != "" && PhonePeReady(s) && reply.Ok? ==>
            var (db2, sent) := ReconcileAt(s, codec.dumpReport, db, i, reply.value, now, d);
            r == Step(db2, StatusUpdated, [call] + sent))
  {
    match PaymentOfAdmission(db, admissionId)
    case None => Step(db, NoPhonePePayment, [])
    case Some(i) =>
      var p := db.payments[i];
      if p.orderId == "" then Step(db, NoPhonePePayment, [])
      else if !PhonePeReady(s) then Step(db, PollError("PhonePe settings are missing in settings.py."), [])
      else
        var path := StatusPathPrefix + s.phonepeMerchantId + "/" + p.orderId;
        var call := PhonePeStatusGet(s.phonepeBaseUrl + path,
                                     PhonePeChecksum(crypto, "", path, s.phonepeSaltKey, s.phonepeSaltIndex),
                                     s.phonepeMerchantId);
        match reply
        case Err(message) => Step(db, PollError(message), [call])
        case Ok(rep) =>
          var (db2, sent) := ReconcileAt(s, codec.dumpReport, db, i, rep, now, d);
          Step(db2, StatusUpdated, [call] + sent)
  }
}

=== FILE: checkout.dfy ===
/** Starting an online payment for an admission (`start_payment`,
    `_start_phonepe_payment` and `_create_razorpay_order`,
    admissions/views.py). The gateway's answer is a parameter; the call the
    code makes is returned in `sent`. */
module Checkout {
  import opened Common
  import opened Text
  import opened Models
  import opened Store
  import opened External
  import opened Signatures
  import opened Reconcile

  /** Absolute URLs the request builds: the success page of an admission and
      the PhonePe callback. */
  datatype SiteUrls = SiteUrls(successUrl: nat -> string, callbackUrl: string)

  datatype StartOutcome =
    | AdmissionMissing
    | AlreadyPaid(admissionId: nat)
    | FeeNotSet(admissionId: nat)
    | StartFailed(admissionId: nat, message: string)
    | RazorpayCheckout(keyId: string, amountPaise: nat, orderId: string)
    | RedirectToGateway(url: string)

  const PayPath: string := "/pg/v1/pay"

  /** The merchant transaction id PhonePe gets for a fresh payment: `ADM`,
      the admission id, then the Unix time in whole seconds. */
  function PhonePeOrderId(admissionId: nat, unixSeconds: nat): (r: string)
    ensures |r| > 3 && r[..3] == "ADM"
  {
    "ADM" + ShowNat(admissionId) + ShowNat(unixSeconds)
  }

  /** Two fresh ids minted while the clock has ten digits (from 2001 to 2286)
      coincide only for the same admission in the same second. */
  lemma {:induction false} PhonePeOrderIdInjective(a1: nat, t1: nat, a2: nat, t2: nat)
    requires Pow10(9) <= t1 < Pow10(10) && Pow10(9) <= t2 < Pow10(10)
    ensures PhonePeOrderId(a1, t1) == PhonePeOrderId(a2, t2) ==> a1 == a2 && t1 == t2
  {
    if PhonePeOrderId(a1, t1) == PhonePeOrderId(a2, t2) {
      ShowNatLength(t1, 10);
      ShowNatLength(t2, 10);
      var s := PhonePeOrderId(a1, t1);
      assert s == "ADM" + ShowNat(a1) + ShowNat(t1);
      assert s == "ADM" + ShowNat(a2) + ShowNat(t2);
      assert ShowNat(t1) == s[|s| - 10..] == ShowNat(t2);
      ShowNatInjective(t1, t2);
      assert ShowNat(a1) == s[3..|s| - 10] == ShowNat(a2);
      ShowNatInjective(a1, a2);
    }
  }

  /** The admission's payment, created as a pending row for the full fee when
      there is none yet. The created row stays even if the view stops later. */
  function EnsurePayment(db: Db, aid: nat, now: Instant): (r: (Db, nat))
    requires Valid(db) && aid in db.admissions
    ensures Valid(r.0)
    ensures PaymentOfAdmission(r.0, aid) == Some(r.1)
    ensures r.0.admissions == db.admissions && r.0.batches == db.batches
    ensures r.0.nextAdmissionId == db.nextAdmissionId && r.0.nextStudentId == db.nextStudentId
    ensures PaymentOfAdmission(db, aid).Some? ==> r.0 == db
    ensures PaymentOfAdmission(db, aid).None? ==>
      r.0.payments == db.payments + [NewPayment(aid, db.admissions[aid].feeAmount, now)]
  {
    match PaymentOfAdmission(db, aid)
    case Some(i) => (db, i)
    case None =>
      var db2 := AddPayment(db, NewPayment(aid, db.admissions[aid].feeAmount, now));
      assert db2.payments[|db.payments|].admission == aid;
      assert forall j :: 0 <= j < |db.payments| ==> db2.payments[j] == db.payments[j];
      (db2, |db.payments|)
  }

  /** The PhonePe pay request for an admission under a merchant transaction id. */
  function PayRequestFor(s: Settings, urls: SiteUrls, a: Admission, orderId: string): (r: PayRequest)
    ensures r.merchantTransactionId == orderId && r.amountPaise == 100 * a.feeAmount
    ensures r.merchantUserId == ShowNat(a.student.id) && DigitsValue(r.merchantUserId) == a.student.id
  {
    ShowNatRoundTrip(a.student.id);
    PayRequest(s.phonepeMerchantId, orderId, ShowNat(a.student.id), a.feeAmount * 100,
               urls.successUrl(a.id), "POST", urls.callbackUrl, a.student.mobile, "PAY_PAGE")
  }

  /** `_start_phonepe_payment`, with the pay request's reply as `reply`. A
      payment that already has an order id keeps it, so a retry reuses it. */
  function StartPhonePe(s: Settings, crypto: Crypto, codec: Codec, urls: SiteUrls, db: Db, i: nat,
                        unixSeconds: nat, reply: Result<PayReply>): (r: Step<StartOutcome>)
    requires Valid(db) && i < |db.payments|
    ensures Valid(r.db)
    ensures r.db.admissions == db.admissions && r.db.batches == db.batches && |r.sent| <= 1
    ensures |r.db.payments| == |db.payments| && r.db.payments[i].admission == db.payments[i].admission
    ensures forall j :: 0 <= j < |db.payments| && j != i ==> r.db.payments[j] == db.payments[j]
    ensures !r.outcome.RazorpayCheckout?
    ensures r.outcome.RedirectToGateway? ==>
      var q := r.db.payments[i];
      && |r.sent| == 1 && r.sent[0].PhonePePost?
      && q.orderId != "" && q.status == Pending && q.gateway == Some(PhonePe)
      && q.amount == db.admissions[db.payments[i].admission].feeAmount
    ensures !PhonePeReady(s) ==>
      r == Step(db, StartFailed(db.payments[i].admission, "PhonePe settings are missing in settings.py."), [])
    ensures PhonePeReady(s) ==>
      var p := db.payments[i];
      var a := db.admissions[p.admission];
      var orderId := if p.orderId != "" then p.orderId else PhonePeOrderId(a.id, unixSeconds);
      var body := codec.encodePayRequest(PayRequestFor(s, urls, a, orderId));
      && r.sent == [PhonePePost(s.phonepeBaseUrl + PayPath, body,
                                PhonePeChecksum(crypto, body, PayPath, s.phonepeSaltKey, s.phonepeSaltIndex))]
      && (reply.Err? ==> r.db == db && r.outcome == StartFailed(a.id, reply.message))
      && (reply.Ok? ==>
            && OnlyTouches(db, r.db, i) && r.db.admissions == db.admissions
            && r.db.payments[i] == p.(gateway := Some(PhonePe), amount := a.feeAmount, payMethod := Some(Online),
                                      status := Pending, orderId := orderId,
                                      gatewayResponse := codec.dumpPayReply(reply.value))
            && (Truthy(reply.value.redirectUrl) ==> r.outcome == RedirectToGateway(reply.value.redirectUrl.value))
            && (!Truthy(reply.value.redirectUrl) ==> r.outcome == StartFailed(a.id, "PhonePe pay URL not received.")))
  {
    var p := db.payments[i];
    var a := db.admissions[p.admission];
    if !PhonePeReady(s) then Step(db, StartFailed(a.id, "PhonePe settings are missing in settings.py."), [])
    else
      var orderId := if p.orderId != "" then p.orderId else PhonePeOrderId(a.id, unixSeconds);
      var body := codec.encodePayRequest(PayRequestFor(s, urls, a, orderId));
      var call := PhonePePost(s.phonepeBaseUrl + PayPath, body,
                              PhonePeChecksum(crypto, body, PayPath, s.phonepeSaltKey, s.phonepeSaltIndex));
      match reply
      case Err(message) => Step(db, StartFailed(a.id, message), [call])
      case Ok(payReply) =>
        var saved := p.(gateway := Some(PhonePe), amount := a.feeAmount, payMethod := Some(Online),
                        status := Pending, orderId := orderId, gatewayResponse := codec.dumpPayReply(payReply));
        var db2 := WritePayment(db, i, saved);
        if Truthy(payReply.redirectUrl) then Step(db2, RedirectToGateway(payReply.redirectUrl.value), [call])
        else Step(db2, StartFailed(a.id, "PhonePe pay URL not received."), [call])
  }

  /** `start_payment` on the Razorpay path, with the order request's reply as `reply`. */
  function StartRazorpay(s: Settings, db: Db, i: nat, reply: Result<RazorpayOrder>): (r: Step<StartOutcome>)
    requires Valid(db) && i < |db.payments|
    ensures Valid(r.db)
    ensures r.db.admissions == db.admissions && r.db.batches == db.batches && |r.sent| <= 1
    ensures |r.db.payments| == |db.payments| && r.db.payments[i].admission == db.payments[i].admission
    ensures forall j :: 0 <= j < |db.payments| && j != i ==> r.db.payments[j] == db.payments[j]
    ensures !r.outcome.RedirectToGateway?
    ensures r.outcome.RazorpayCheckout? ==>
      var a := db.admissions[db.payments[i].admission];
      var q := r.db.payments[i];
      && r.outcome.amountPaise == 100 * a.feeAmount
      && r.sent == [RazorpayCreateOrder(r.outcome.amountPaise, "admission_" + ShowNat(a.id))]
      && q.orderId == r.outcome.orderId && q.status == Pending && q.gateway == Some(Razorpay)
    ensures s.razorpayKeyId == "" || s.razorpayKeySecret == "" ==>
      r == Step(db, StartFailed(db.payments[i].admission, "Razorpay keys are missing in settings."), [])
    ensures s.razorpayKeyId != "" && s.razorpayKeySecret != "" ==>
      var p := db.payments[i];
      var a := db.admissions[p.admission];
      && r.sent == [RazorpayCreateOrder(100 * a.feeAmount, "admission_" + ShowNat(a.id))]
      && (reply.Err? ==> r.db == db && r.outcome == StartFailed(a.id, reply.message))
      && (reply.Ok? ==>
            var orderId := reply.value.id.GetOr("");
            && OnlyTouches(db, r.db, i) && r.db.admissions == db.admissions
            && r.db.payments[i] == p.(gateway := Some(Razorpay), orderId := orderId, amount := a.feeAmount,
                                      payMethod := Some(Online), status := Pending)
            && r.outcome == RazorpayCheckout(s.razorpayKeyId, 100 * a.feeAmount, orderId))
  {
    var p := db.payments[i];
    var a := db.admissions[p.admission];
    if s.razorpayKeyId == "" || s.razorpayKeySecret == "" then
      Step(db, StartFailed(a.id, "Razorpay keys are missing in settings."), [])
    else
      var amountPaise := a.feeAmount * 100;
      var call := RazorpayCreateOrder(amountPaise, "admission_" + ShowNat(a.id));
      match reply
      case Err(message) => Step(db, StartFailed(a.id, message), [call])
      case Ok(order) =>
        var saved := p.(gateway := Some(Razorpay), orderId := order.id.GetOr(""), amount := a.feeAmount,
                        payMethod := Some(Online), status := Pending);
        Step(WritePayment(db, i, saved), RazorpayCheckout(s.razorpayKeyId, amountPaise, saved.orderId), [call])
  }

  /** The configured gateway's start, on a payment that is not yet paid. */
  function GatewayStart(s: Settings, crypto: Crypto, codec: Codec, urls: SiteUrls, db: Db, i: nat,
                        unixSeconds: nat, phonePeReply: Result<PayReply>, razorpayReply: Result<RazorpayOrder>): (r: Step<StartOutcome>)
    requires Valid(db) && i < |db.payments|
    ensures Valid(r.db)
    ensures r.db.admissions == db.admissions && r.db.batches == db.batches && |r.sent| <= 1
    ensures |r.db.payments| == |db.payments| && r.db.payments[i].admission == db.payments[i].admission
    ensures forall j :: 0 <= j < |db.payments| && j != i ==> r.db.payments[j] == db.payments[j]
    ensures s.paymentGateway == PhonePe ==> r == StartPhonePe(s, crypto, codec, urls, db, i, unixSeconds, phonePeReply)
    ensures s.paymentGateway == Razorpay ==> r == StartRazorpay(s, db, i, razorpayReply)
    ensures r.outcome.RazorpayCheckout? ==>
      var a := db.admissions[db.payments[i].admission];
      var q := r.db.payments[i];
      && s.paymentGateway == Razorpay
      && r.outcome.amountPaise == 100 * a.feeAmount
      && r.sent == [RazorpayCreateOrder(r.outcome.amountPaise, "admission_" + ShowNat(a.id))]
      && q.orderId == r.outcome.orderId && q.status == Pending && q.gateway == Some(Razorpay)
      && q.amount == a.feeAmount
    ensures r.outcome.RedirectToGateway? ==>
      var q := r.db.payments[i];
      && s.paymentGateway == PhonePe && |r.sent| == 1 && r.sent[0].PhonePePost?
      && q.orderId != "" && q.status == Pending && q.gateway == Some(PhonePe)
      && q.amount == db.admissions[db.payments[i].admission].feeAmount
  {
    match s.paymentGateway
    case PhonePe => StartPhonePe(s, crypto, codec, urls, db, i, unixSeconds, phonePeReply)
    case Razorpay => StartRazorpay(s, db, i, razorpayReply)
  }

  /** Lookup by admission is unaffected by a step that keeps every payment's admission. */
  lemma SameOwnersSameLookup(db: Db, db2: Db, aid: nat)
    requires |db2.payments| == |db.payments|
    requires forall j :: 0 <= j < |db.payments| ==> db2.payments[j].admission == db.payments[j].admission
    ensures PaymentOfAdmission(db2, aid) == PaymentOfAdmission(db, aid)
  {
  }

  /** The payment `EnsurePayment` hands on is Paid exactly when the admission
      already had a Paid payment; a new one is Pending. */
  lemma EnsuredPaymentStatus(db: Db, aid: nat, now: Instant)
    requires Valid(db) && aid in db.admissions
    ensures var e := EnsurePayment(db, aid, now);
      e.1 < |e.0.payments| &&
      (e.0.payments[e.1].status == Paid <==>
         PaymentOfAdmission(db, aid).Some? && db.payments[PaymentOfAdmission(db, aid).value].status == Paid)
  {
  }

  /** `start_payment`: only the admission's own payment is created or
      rewritten, no admission changes, a paid payment is left alone, and at
      most one gateway call is made, for the fee in paise. */
  function StartPayment(s: Settings, crypto: Crypto, codec: Codec, urls: SiteUrls, db: Db, aid: nat, now: Instant,
                        unixSeconds: nat, phonePeReply: Result<PayReply>, razorpayReply: Result<RazorpayOrder>): (r: Step<StartOutcome>)
    requires Valid(db)
    ensures Valid(r.db)
    ensures r.db.admissions == db.admissions && r.db.batches == db.batches
    ensures |r.sent| <= 1
    ensures aid !in db.admissions ==> r == Step(db, AdmissionMissing, [])
    ensures aid in db.admissions ==>
      && |r.db.payments| == |db.payments| + (if PaymentOfAdmission(db, aid).None? then 1 else 0)
      && (forall j :: 0 <= j < |db.payments| && db.payments[j].admission != aid ==> r.db.payments[j] == db.payments[j])
      && PaymentOfAdmission(r.db, aid).Some?
    ensures aid in db.admissions && PaymentOfAdmission(db, aid).Some? && db.payments[PaymentOfAdmission(db, aid).value].status == Paid ==>
      r == Step(db, AlreadyPaid(aid), [])
    ensures aid in db.admissions && db.admissions[aid].feeAmount == 0 ==>
      r.sent == [] && (r.outcome == FeeNotSet(aid) || r.outcome == AlreadyPaid(aid))
    ensures r.outcome.RazorpayCheckout? ==>
      && aid in db.admissions && s.paymentGateway == Razorpay
      && r.outcome.amountPaise == 100 * db.admissions[aid].feeAmount > 0
      && r.sent == [RazorpayCreateOrder(r.outcome.amountPaise, "admission_" + ShowNat(aid))]
      && var q := r.db.payments[PaymentOfAdmission(r.db, aid).value];
         q.orderId == r.outcome.orderId && q.status == Pending && q.gateway == Some(Razorpay)
         && q.amount == db.admissions[aid].feeAmount
    ensures r.outcome.RedirectToGateway? ==>
      && aid in db.admissions && s.paymentGateway == PhonePe && |r.sent| == 1 && r.sent[0].PhonePePost?
      && var q := r.db.payments[PaymentOfAdmission(r.db, aid).value];
         q.orderId != "" && q.status == Pending && q.gateway == Some(PhonePe) && q.amount == db.admissions[aid].feeAmount
  {
    if aid !in db.admissions then Step(db, AdmissionMissing, [])
    else
      var e := EnsurePayment(db, aid, now);
      var db1, i := e.0, e.1;
      var a := db1.admissions[aid];
      if db1.payments[i].status == Paid then Step(db1, AlreadyPaid(aid), [])
      else if a.feeAmount <= 0 then Step(db1, FeeNotSet(aid), [])
      else
        var r := GatewayStart(s, crypto, codec, urls, db1, i, unixSeconds, phonePeReply, razorpayReply);
        SameOwnersSameLookup(db1, r.db, aid);
        r
  }

  /** Once the guards pass (the admission exists, is not paid and has a fee),
      `start_payment` is exactly the configured gateway's start on the found or
      newly created payment. */
  lemma StartPaymentReachesGateway(s: Settings, crypto: Crypto, codec: Codec, urls: SiteUrls, db: Db, aid: nat, now: Instant,
                                   unixSeconds: nat, phonePeReply: Result<PayReply>, razorpayReply: Result<RazorpayOrder>)
    requires Valid(db) && aid in db.admissions && db.admissions[aid].feeAmount > 0
    requires PaymentOfAdmission(db, aid).None? || db.payments[PaymentOfAdmission(db, aid).value].status != Paid
    ensures var e := EnsurePayment(db, aid, now);
      StartPayment(s, crypto, codec, urls, db, aid, now, unixSeconds, phonePeReply, razorpayReply) ==
      GatewayStart(s, crypto, codec, urls, e.0, e.1, unixSeconds, phonePeReply, razorpayReply)
  {
    EnsuredPaymentStatus(db, aid, now);
  }

  /** An unpaid admission without a fee gets no gateway call, and nothing is
      written beyond the payment created when it had none. */
  lemma StartPaymentWithoutFee(s: Settings, crypto: Crypto, codec: Codec, urls: SiteUrls, db: Db, aid: nat, now: Instant,
                               unixSeconds: nat, phonePeReply: Result<PayReply>, razorpayReply: Result<RazorpayOrder>)
    requires Valid(db) && aid in db.admissions && db.admissions[aid].feeAmount == 0
    requires PaymentOfAdmission(db, aid).None? || db.payments[PaymentOfAdmission(db, aid).value].status != Paid
    ensures StartPayment(s, crypto, codec, urls, db, aid, now, unixSeconds, phonePeReply, razorpayReply) ==
      Step(EnsurePayment(db, aid, now).0, FeeNotSet(aid), [])
  {
    EnsuredPaymentStatus(db, aid, now);
  }

  /** Retrying a PhonePe start after a successful pay request sends the same
      merchant transaction id again, whatever the clock says. */
  lemma PhonePeRetryReusesOrderId(s: Settings, crypto: Crypto, codec: Codec, urls: SiteUrls, db: Db, i: nat,
                                  t1: nat, reply1: PayReply, t2: nat, reply2: Result<PayReply>)
    requires Valid(db) && i < |db.payments| && PhonePeReady(s)
    ensures
      var r1 := StartPhonePe(s, crypto, codec, urls, db, i, t1, Ok(reply1));
      var r2 := StartPhonePe(s, crypto, codec, urls, r1.db, i, t2, reply2);
      r2.sent == r1.sent
  {
    var r1 := StartPhonePe(s, crypto, codec, urls, db, i, t1, Ok(reply1));
    assert r1.db.payments[i].orderId != "";
    assert r1.db.admissions == db.admissions;
  }
}

=== FILE: common.dfy ===
/** Small failure-compatible wrappers and the two row lookups the Django ORM
    offers the admissions code: `.filter(...).first()` and `.get(...)`. */
module Common {

  datatype Option<+T> = None | Some(value: T) {
    /** Python's `d.get(key, default)` once the key lookup has been done. */
    function GetOr(default: T): T {
      match this
      case Some(v) => v
      case None => default
    }
  }

  /** A call that either produced a value or failed with a message. */
  datatype Result<+T> = Ok(value: T) | Err(message: string)

  /** Outcome of Django's `.get()`: exactly one row, none, or several. */
  datatype Single<+T> = One(value: T) | NoRow | ManyRows

  /** Python truthiness of a JSON value that is a string when present. */
  predicate Truthy(o: Option<string>) {
    o.Some? && o.value != ""
  }

  /** Python's `a or b` where `a` is an optional string. */
  function OrElse(a: Option<string>, b: string): string {
    if Truthy(a) then a.value else b
  }

  /** Index of the first element satisfying `p`: `.filter(p).first()` over rows
      kept in primary-key order. */
  function FirstWhere<T>(s: seq<T>, p: T -> bool): (r: Option<nat>)
    ensures r.Some? ==> r.value < |s| && p(s[r.value])
    ensures r.Some? ==> forall j :: 0 <= j < r.value ==> !p(s[j])
    ensures r.None? ==> forall j :: 0 <= j < |s| ==> !p(s[j])
    decreases |s|
  {
    if |s| == 0 then None
    else if p(s[0]) then Some(0)
    else
      match FirstWhere(s[1..], p)
      case None => None
      case Some(k) => Some(k + 1)
  }

  /** `.get(p)`: the unique element satisfying `p`, or which way uniqueness fails. */
  function GetSingle<T>(s: seq<T>, p: T -> bool): (r: Single<T>)
    ensures r.NoRow? <==> forall i :: 0 <= i < |s| ==> !p(s[i])
    ensures r.ManyRows? <==> exists i, j :: 0 <= i < j < |s| && p(s[i]) && p(s[j])
    ensures r.One? ==> exists i :: 0 <= i < |s| && s[i] == r.value && p(s[i])
  {
    match FirstWhere(s, p)
    case None => NoRow
    case Some(i) =>
      match FirstWhere(s[i + 1..], p)
      case Some(k) =>
        assert s[i + 1 + k] == s[i + 1..][k];
        ManyRows
      case None =>
        assert forall a, b :: 0 <= a < b < |s| && p(s[a]) ==> !p(s[b]) by {
          forall a, b | 0 <= a < b < |s| && p(s[a])
            ensures !p(s[b])
          {
            assert a >= i;
            assert s[b] == s[i + 1..][b - i - 1];
          }
        }
        One(s[i])
  }
}

=== FILE: external.dfy ===
/** Everything the payment code gets from outside itself: the settings it
    reads, the hash primitives and JSON/base64 codecs it calls (left
    uninterpreted: they are passed in as functions), the shapes of the
    gateway messages, and the outbound calls it makes. */
module External {
  import opened Common
  import opened Models

  /** The Django settings the payment code reads, with their names kept. */
  datatype Settings = Settings(
    paymentGateway: PaymentGateway,
    razorpayKeyId: string,
    razorpayKeySecret: string,
    phonepeMerchantId: string,
    phonepeSaltKey: string,
    phonepeSaltIndex: string,
    phonepeBaseUrl: string,
    phonepeVerifyCallback: bool,
    sendPaymentNotifications: bool,
    smsProvider: string,
    twilioAccountSid: string,
    twilioAuthToken: string,
    twilioFromNumber: string,
    whatsappProvider: string,
    whatsappPhoneNumberId: string,
    whatsappAccessToken: string,
    defaultCountryCode: string)

  /** SHA-256 and HMAC-SHA-256, each returning a lower-case hex digest. */
  datatype Crypto = Crypto(
    sha256Hex: string -> string,
    hmacSha256Hex: (string, string) -> string)

  /** The `data` object of a PhonePe transaction report; a missing `data` reads
      as an object with no keys. */
  datatype TxnData = TxnData(
    merchantTransactionId: Option<string>,
    state: Option<string>,
    responseCode: Option<string>,
    transactionId: Option<string>,
    utr: Option<string>,
    providerReferenceId: Option<string>)

  /** A decoded PhonePe report (callback payload or status-check reply). */
  datatype Report = Report(data: TxnData, state: Option<string>, code: Option<string>)

  /** The callback body `{"response": <base64>}`. */
  datatype Envelope = Envelope(response: Option<string>)

  /** The PhonePe pay request built by the start-payment view. */
  datatype PayRequest = PayRequest(
    merchantId: string,
    merchantTransactionId: string,
    merchantUserId: string,
    amountPaise: nat,
    redirectUrl: string,
    redirectMode: string,
    callbackUrl: string,
    mobileNumber: string,
    instrumentType: string)

  /** The part of PhonePe's pay reply the code reads: `data.instrumentResponse.redirectInfo.url`. */
  datatype PayReply = PayReply(redirectUrl: Option<string>)

  /** The part of Razorpay's order reply the code reads: `id`. */
  datatype RazorpayOrder = RazorpayOrder(id: Option<string>)

  /** JSON and base64 conversions; a decoder answers `None` where Python raises. */
  datatype Codec = Codec(
    parseEnvelope: string -> Option<Envelope>,
    decodeReport: string -> Option<Report>,
    dumpReport: Report -> string,
    encodePayRequest: PayRequest -> string,
    dumpPayReply: PayReply -> string)

  /** Calls made to other systems. */
  datatype Outbound =
    | RazorpayCreateOrder(amountPaise: nat, receipt: string)
    | PhonePePost(url: string, requestB64: string, xVerify: string)
    | PhonePeStatusGet(url: string, xVerify: string, merchantId: string)
    | Sms(to: string, body: string)
    | WhatsApp(to: string, body: string)

  /** Whether each notification channel answers with a 2xx if it is called. */
  datatype Delivery = Delivery(smsOk: bool, whatsappOk: bool)
}

=== FILE: forms.dfy ===
/** The admission and student-login forms (admissions/forms.py) with the
    parts of Django's field cleaning they rely on: `CharField` strips and
    then runs every validator, `ChoiceField` compares the raw value with the
    choice values, `ModelChoiceField` looks the primary key up, and the
    form-level `clean_batch` and `clean` hooks add the batch errors. */
module Forms {
  import opened Common
  import opened Text
  import opened Models

  datatype FieldError =
    | Required
    | TooLong(limit: nat)
    | NullCharacter
    | BadPhone
    | InvalidChoice
    | NotWholeNumber
    | BatchFull
    | BatchMismatch

  /** A cleaned field: its value, or the non-empty set of errors it shows. */
  datatype FieldResult<+T> = Accepted(value: T) | Rejected(errors: set<FieldError>)

  datatype Validator = MaxLength(limit: nat) | TenDigitPhone | NoNullCharacters

  predicate Passes(v: Validator, s: string) {
    match v
    case MaxLength(n) => |s| <= n
    case TenDigitPhone => IsTenDigits(s)
    case NoNullCharacters => '\0' !in s
  }

  function ErrorOf(v: Validator): FieldError {
    match v
    case MaxLength(n) => TooLong(n)
    case TenDigitPhone => BadPhone
    case NoNullCharacters => NullCharacter
  }

  /** A `CharField`: whether it is required, and its validators (a
      `max_length` adds one, and every `CharField` refuses NUL characters). */
  datatype CharSpec = CharSpec(required: bool, validators: seq<Validator>)

  const NameField: CharSpec := CharSpec(true, [MaxLength(100), NoNullCharacters])
  /** `mobile` and `whatsapp`: `max_length=10` and the ten-digit pattern. */
  const PhoneField: CharSpec := CharSpec(true, [TenDigitPhone, MaxLength(10), NoNullCharacters])
  const AddressField: CharSpec := CharSpec(false, [NoNullCharacters])

  /** `CharField.clean`: strip; an empty value is an error only if required
      (and skips the validators); otherwise every failing validator reports. */
  function CleanChar(spec: CharSpec, raw: string): (r: FieldResult<string>)
    ensures r.Rejected? ==> r.errors != {}
    ensures r.Accepted? ==> r.value == Strip(raw)
    ensures Strip(raw) == "" ==> r == (if spec.required then Rejected({Required}) else Accepted(""))
    ensures Strip(raw) != "" ==>
      && (r.Accepted? <==> forall v :: v in spec.validators ==> Passes(v, Strip(raw)))
      && (r.Rejected? ==> forall e :: e in r.errors <==> exists v :: v in spec.validators && !Passes(v, Strip(raw)) && e == ErrorOf(v))
  {
    var value := Strip(raw);
    if value == "" then
      if spec.required then Rejected({Required}) else Accepted("")
    else
      var errors := set v | v in spec.validators && !Passes(v, value) :: ErrorOf(v);
      if errors == {} then
        assert forall v :: v in spec.validators && !Passes(v, value) ==> ErrorOf(v) in errors;
        Accepted(value)
      else Rejected(errors)
  }

  lemma TenDigitsPassPhoneField(s: string)
    requires IsTenDigits(s)
    ensures forall v :: v in PhoneField.validators ==> Passes(v, s)
  {
  }

  /** A phone number is accepted exactly when, once stripped, it is ten
      digits; the accepted value is those ten digits. */
  lemma PhoneAcceptedIffTenDigits(raw: string)
    ensures CleanChar(PhoneField, raw).Accepted? <==> IsTenDigits(Strip(raw))
    ensures CleanChar(PhoneField, raw).Accepted? ==> IsTenDigits(CleanChar(PhoneField, raw).value)
  {
    if IsTenDigits(Strip(raw)) {
      TenDigitsPassPhoneField(Strip(raw));
    } else if Strip(raw) != "" {
      assert TenDigitPhone in PhoneField.validators;
    }
  }

  /** Cleaning an accepted phone number again gives it back unchanged. */
  lemma PhoneCleanIdempotent(raw: string)
    requires CleanChar(PhoneField, raw).Accepted?
    ensures CleanChar(PhoneField, CleanChar(PhoneField, raw).value) == CleanChar(PhoneField, raw)
  {
    PhoneAcceptedIffTenDigits(raw);
    var v := Strip(raw);
    StripKeepsTrimmed(v);
    assert !IsSpace(v[0]) && !IsSpace(v[9]) by {
      assert IsDigit(v[0]) && IsDigit(v[9]);
    }
    PhoneAcceptedIffTenDigits(v);
  }

  /** `ChoiceField.clean`: no stripping; empty is `Required`, a value that is
      not one of the choice values is `InvalidChoice`. */
  function CleanChoice<T>(raw: string, read: string -> Option<T>): (r: FieldResult<T>)
    ensures raw == "" ==> r == Rejected({Required})
    ensures raw != "" ==> (r.Accepted? <==> read(raw).Some?)
    ensures r.Accepted? ==> read(raw) == Some(r.value)
    ensures raw != "" && r.Rejected? ==> r.errors == {InvalidChoice}
  {
    if raw == "" then Rejected({Required})
    else match read(raw)
      case Some(v) => Accepted(v)
      case None => Rejected({InvalidChoice})
  }

  function ClassValue(c: ClassLevel): string {
    match c
    case Class11 => "11"
    case Class12 => "12"
  }

  function BoardValue(b: Board): string {
    match b
    case Cbse => "CBSE"
    case Bseb => "BSEB"
  }

  function MediumValue(m: Medium): string {
    match m
    case Hindi => "Hindi"
    case English => "English"
  }

  function ReadClass(s: string): Option<ClassLevel> {
    if s == "11" then Some(Class11) else if s == "12" then Some(Class12) else None
  }

  function ReadBoard(s: string): Option<Board> {
    if s == "CBSE" then Some(Cbse) else if s == "BSEB" then Some(Bseb) else None
  }

  function ReadMedium(s: string): Option<Medium> {
    if s == "Hindi" then Some(Hindi) else if s == "English" then Some(English) else None
  }

  /** Each choice field reads back exactly the stored values of its enumeration. */
  lemma ChoiceValuesRoundTrip(s: string, c: ClassLevel, b: Board, m: Medium)
    ensures ReadClass(s) == Some(c) <==> s == ClassValue(c)
    ensures ReadBoard(s) == Some(b) <==> s == BoardValue(b)
    ensures ReadMedium(s) == Some(m) <==> s == MediumValue(m)
    ensures CleanChoice(ClassValue(c), ReadClass) == Accepted(c)
    ensures CleanChoice(BoardValue(b), ReadBoard) == Accepted(b)
    ensures CleanChoice(MediumValue(m), ReadMedium) == Accepted(m)
  {
  }

  /** `ModelChoiceField.clean` over the batches offered: empty is no batch
      (the field is never required); otherwise the value must be the primary
      key of an offered batch. With no batches the queryset is empty. */
  function CleanBatchChoice(raw: string, batches: map<nat, Batch>): (r: FieldResult<Option<nat>>)
    ensures raw == "" ==> r == Accepted(None)
    ensures raw != "" ==> (r.Accepted? <==> ParseInt(raw).Some? && ParseInt(raw).value >= 0 && ParseInt(raw).value as nat in batches)
    ensures raw != "" && r.Accepted? ==> r.value == Some(ParseInt(raw).value as nat)
    ensures r.Rejected? ==> r.errors == {InvalidChoice}
  {
    if raw == "" then Accepted(None)
    else match ParseInt(raw)
      case Some(k) => if k >= 0 && k as nat in batches then Accepted(Some(k as nat)) else Rejected({InvalidChoice})
      case None => Rejected({InvalidChoice})
  }

  /** `AdmissionForm.clean_batch`: a chosen batch that is full is refused. */
  function CleanBatch(raw: string, batches: map<nat, Batch>): (r: FieldResult<Option<nat>>)
    ensures r.Accepted? ==> r == CleanBatchChoice(raw, batches)
    ensures r.Accepted? && r.value.Some? ==> r.value.value in batches && !batches[r.value.value].IsFull()
    ensures CleanBatchChoice(raw, batches).Rejected? ==> r == CleanBatchChoice(raw, batches)
    ensures CleanBatchChoice(raw, batches).Accepted? && CleanBatchChoice(raw, batches).value.Some? ==>
      var k := CleanBatchChoice(raw, batches).value.value;
      (r.Rejected? <==> batches[k].IsFull()) && (r.Rejected? ==> r.errors == {BatchFull})
  {
    match CleanBatchChoice(raw, batches)
    case Accepted(Some(k)) => if batches[k].IsFull() then Rejected({BatchFull}) else Accepted(Some(k))
    case other => other
  }

  /** The raw POST fields; a missing field reads as "". */
  datatype AdmissionPost = AdmissionPost(
    name: string, studentClass: string, board: string, medium: string,
    mobile: string, whatsapp: string, address: string, batch: string)

  datatype AdmissionCheck = AdmissionCheck(
    name: FieldResult<string>,
    studentClass: FieldResult<ClassLevel>,
    board: FieldResult<Board>,
    medium: FieldResult<Medium>,
    mobile: FieldResult<string>,
    whatsapp: FieldResult<string>,
    address: FieldResult<string>,
    batch: FieldResult<Option<nat>>)
  {
    predicate IsValid() {
      && name.Accepted? && studentClass.Accepted? && board.Accepted? && medium.Accepted?
      && mobile.Accepted? && whatsapp.Accepted? && address.Accepted? && batch.Accepted?
    }
  }

  /** `AdmissionForm.clean`: a batch that survived its own checks must belong
      to the chosen class and medium; a class or medium that did not clean
      counts as a mismatch. */
  function CheckBatchMatches(batch: FieldResult<Option<nat>>, cls: FieldResult<ClassLevel>, medium: FieldResult<Medium>,
                             batches: map<nat, Batch>): (r: FieldResult<Option<nat>>)
    requires batch.Accepted? && batch.value.Some? ==> batch.value.value in batches
    ensures batch.Rejected? || batch.value.None? ==> r == batch
    ensures batch.Accepted? && batch.value.Some? ==>
      var b := batches[batch.value.value];
      && (r.Accepted? <==> cls.Accepted? && medium.Accepted? && b.studentClass == cls.value && b.medium == medium.value)
      && (r.Accepted? ==> r == batch)
      && (r.Rejected? ==> r.errors == {BatchMismatch})
  {
    match batch
    case Accepted(Some(k)) =>
      var b := batches[k];
      if medium.Rejected? || b.medium != medium.value || cls.Rejected? || b.studentClass != cls.value then
        Rejected({BatchMismatch})
      else batch
    case _ => batch
  }

  /** `AdmissionForm(data).is_valid()` against the batches that exist. */
  function CleanAdmission(post: AdmissionPost, batches: map<nat, Batch>): (r: AdmissionCheck)
    ensures r.name == CleanChar(NameField, post.name)
    ensures r.mobile == CleanChar(PhoneField, post.mobile) && r.whatsapp == CleanChar(PhoneField, post.whatsapp)
    ensures r.address == CleanChar(AddressField, post.address)
    ensures r.studentClass == CleanChoice(post.studentClass, ReadClass)
    ensures r.board == CleanChoice(post.board, ReadBoard)
    ensures r.medium == CleanChoice(post.medium, ReadMedium)
    ensures r.batch == CheckBatchMatches(CleanBatch(post.batch, batches), r.studentClass, r.medium, batches)
  {
    var cls := CleanChoice(post.studentClass, ReadClass);
    var medium := CleanChoice(post.medium, ReadMedium);
    AdmissionCheck(
      CleanChar(NameField, post.name),
      cls,
      CleanChoice(post.board, ReadBoard),
      medium,
      CleanChar(PhoneField, post.mobile),
      CleanChar(PhoneField, post.whatsapp),
      CleanChar(AddressField, post.address),
      CheckBatchMatches(CleanBatch(post.batch, batches), cls, medium, batches))
  }

  /** A valid admission form has ten-digit phone numbers and, when it names a
      batch, an existing batch with a free seat for the chosen class and medium. */
  lemma ValidAdmissionMeetsRules(post: AdmissionPost, batches: map<nat, Batch>)
    ensures var r := CleanAdmission(post, batches);
      r.IsValid() ==>
      && IsTenDigits(r.mobile.value) && IsTenDigits(r.whatsapp.value)
      && |r.name.value| <= 100
      && (r.batch.value.Some? ==>
            var b := batches[r.batch.value.value];
            && r.batch.value.value in batches && !b.IsFull()
            && b.studentClass == r.studentClass.value && b.medium == r.medium.value)
  {
    PhoneAcceptedIffTenDigits(post.mobile);
    PhoneAcceptedIffTenDigits(post.whatsapp);
    var v := Strip(post.name);
    if v != "" {
      assert MaxLength(100) in NameField.validators;
    }
  }

  /** Leaving the batch empty never raises a batch error, whether or not
      batches exist and whatever class and medium were chosen. */
  lemma NoBatchNoBatchError(post: AdmissionPost, batches: map<nat, Batch>)
    requires post.batch == ""
    ensures CleanAdmission(post, batches).batch == Accepted(None)
  {
  }

  /** A full batch reports only that it is full: the mismatch check never
      sees it. */
  lemma FullBatchReportsOnlyFull(post: AdmissionPost, batches: map<nat, Batch>, k: nat)
    requires k in batches && batches[k].IsFull()
    requires CleanBatchChoice(post.batch, batches) == Accepted(Some(k))
    ensures CleanAdmission(post, batches).batch == Rejected({BatchFull})
  {
  }

  /** A batch with room gets an error exactly when its class or medium
      differs from the chosen ones. */
  lemma OpenBatchErrorIffMismatch(post: AdmissionPost, batches: map<nat, Batch>, k: nat, c: ClassLevel, m: Medium)
    requires k in batches && !batches[k].IsFull()
    requires CleanBatchChoice(post.batch, batches) == Accepted(Some(k))
    requires post.studentClass == ClassValue(c) && post.medium == MediumValue(m)
    ensures CleanAdmission(post, batches).batch.Rejected? <==> batches[k].studentClass != c || batches[k].medium != m
  {
    ChoiceValuesRoundTrip(post.studentClass, c, Cbse, m);
  }

  datatype Widget = Select | HiddenInput

  /** `AdmissionForm.__init__`: the batch field is hidden exactly when no
      batch exists; it is never required, so an empty choice always cleans. */
  function BatchWidget(batches: map<nat, Batch>): (w: Widget)
    ensures w == HiddenInput <==> batches == map[]
    ensures w == Select ==> exists k :: k in batches
  {
    if batches == map[] then HiddenInput
    else
      assert exists k :: k in batches by {
        var k :| k in batches.Keys;
      }
      Select
  }

  /** `IntegerField.clean`: "" is `Required`; otherwise a trailing `.0*`
      and whitespace are dropped and the rest must read as an integer. */
  function CleanInteger(raw: string): (r: FieldResult<int>)
    ensures raw == "" ==> r == Rejected({Required})
    ensures raw != "" ==> (r.Accepted? <==> IntegerFieldValue(raw).Some?)
    ensures r.Accepted? ==> IntegerFieldValue(raw) == Some(r.value)
    ensures raw != "" && r.Rejected? ==> r.errors == {NotWholeNumber}
  {
    if raw == "" then Rejected({Required})
    else match IntegerFieldValue(raw)
      case Some(i) => Accepted(i)
      case None => Rejected({NotWholeNumber})
  }

  datatype LoginCheck = LoginCheck(admissionId: FieldResult<int>, mobile: FieldResult<string>) {
    predicate IsValid() {
      admissionId.Accepted? && mobile.Accepted?
    }
  }

  /** `StudentLoginForm(data).is_valid()` */
  function CleanLogin(admissionId: string, mobile: string): (r: LoginCheck)
    ensures r.IsValid() <==> admissionId != "" && IntegerFieldValue(admissionId).Some? && IsTenDigits(Strip(mobile))
    ensures r.IsValid() ==> IntegerFieldValue(admissionId) == Some(r.admissionId.value) && r.mobile.value == Strip(mobile)
  {
    PhoneAcceptedIffTenDigits(mobile);
    LoginCheck(CleanInteger(admissionId), CleanChar(PhoneField, mobile))
  }

  /** Ten digits clean to themselves. */
  lemma TenDigitsCleanToThemselves(m: string)
    requires IsTenDigits(m)
    ensures CleanChar(PhoneField, m) == Accepted(m)
  {
    assert IsDigit(m[0]) && IsDigit(m[9]);
    StripKeepsTrimmed(m);
    PhoneAcceptedIffTenDigits(m);
  }

  /** The admission id as the success page prints it reads back as itself. */
  lemma PrintedIdCleansToItself(id: nat)
    ensures CleanInteger(ShowNat(id)) == Accepted(id as int)
  {
    IntegerFieldReadsShowNat(id);
  }

  /** The admission id printed by the success page logs in as itself. */
  lemma LoginReadsPrintedId(id: nat, mobile: string)
    requires IsTenDigits(mobile)
    ensures CleanLogin(ShowNat(id), mobile) == LoginCheck(Accepted(id), Accepted(mobile))
  {
    PrintedIdCleansToItself(id);
    TenDigitsCleanToThemselves(mobile);
  }
}

=== FILE: intake.dfy ===
/** The public admission view (`admission`, admissions/views.py): a valid
    form creates the student, the admission, its pending payment, and takes
    a seat in the chosen batch. */
module Intake {
  import opened Common
  import opened Models
  import opened Store
  import opened Forms

  /** What the view ends with. `PlanNotUnique` is the uncaught
      `MultipleObjectsReturned` when two fee plans share a class and medium. */
  datatype IntakeOutcome =
    | FormInvalid(check: AdmissionCheck)
    | PlanNotUnique
    | Submitted(admissionId: nat, offerApplied: bool, planMissing: bool)

  /** The rows after the view, and how it ended. */
  datatype Admitted = Admitted(db: Db, outcome: IntakeOutcome)

  /** The fee the view charges under a plan: the offer price only while the
      offer runs and only when it is actually lower. */
  function OfferFee(plan: FeePlan, today: Date): (r: (nat, bool))
    ensures r.1 <==> today <= plan.offerEndDate && plan.offerFee < plan.originalFee
    ensures r.0 <= plan.originalFee
    ensures r.1 ==> r.0 == plan.offerFee < plan.originalFee
    ensures !r.1 ==> r.0 == plan.originalFee
  {
    var applied := today <= plan.offerEndDate && plan.offerFee < plan.originalFee;
    (if applied then plan.offerFee else plan.originalFee, applied)
  }

  /** `get_fee` charges the offer price while it runs even when it is higher
      than the original price; the view never does. */
  lemma GetFeeIgnoresPriceComparison()
    ensures var plan := FeePlan(Class12, Hindi, 5000, 6000, 10);
      && GetFee([plan], Class12, Hindi, 1) == Some((6000, true))
      && OfferFee(plan, 1) == (5000, false)
  {
    var plan := FeePlan(Class12, Hindi, 5000, 6000, 10);
    assert GetSingle([plan], PlanFor(Class12, Hindi)).One?;
  }

  /** The view and `get_fee` agree whenever the offer is not dearer than the
      original price (an equal offer price is charged either way). */
  lemma GetFeeAgreesOnCheaperOffers(plans: seq<FeePlan>, cls: ClassLevel, medium: Medium, today: Date)
    requires GetSingle(plans, PlanFor(cls, medium)).One?
    requires GetSingle(plans, PlanFor(cls, medium)).value.offerFee <= GetSingle(plans, PlanFor(cls, medium)).value.originalFee
    ensures GetFee(plans, cls, medium, today).value.0 == OfferFee(GetSingle(plans, PlanFor(cls, medium)).value, today).0
  {
  }

  /** Every batch has no more filled seats than seats. */
  predicate SeatsWithinCapacity(db: Db) {
    forall k :: k in db.batches ==> db.batches[k].filledSeats <= db.batches[k].totalSeats
  }

  /** The batch after one more student has joined it. */
  function TakeSeat(b: Batch): (r: Batch)
    ensures r.filledSeats == b.filledSeats + 1
    ensures !b.IsFull() ==> r.RemainingSeats() + 1 == b.RemainingSeats()
    ensures r.(filledSeats := b.filledSeats) == b
  {
    b.(filledSeats := b.filledSeats + 1)
  }

  /** `admission` on a POST: the form, then the fee plan, then the rows. */
  function Admit(db: Db, plans: seq<FeePlan>, post: AdmissionPost, today: Date, now: Instant): (r: Admitted)
    requires Valid(db)
    ensures Valid(r.db)
    ensures !CleanAdmission(post, db.batches).IsValid() ==>
      r == Admitted(db, FormInvalid(CleanAdmission(post, db.batches)))
    ensures CleanAdmission(post, db.batches).IsValid() ==>
      var f := CleanAdmission(post, db.batches);
      var plan := GetSingle(plans, PlanFor(f.studentClass.value, f.medium.value));
      && (f.batch.value.Some? ==> f.batch.value.value in db.batches && !db.batches[f.batch.value.value].IsFull())
      && (plan.ManyRows? ==> r == Admitted(db, PlanNotUnique))
      && (plan.NoRow? ==> r == Enrol(db, f, 0, false, true, now))
      && (plan.One? ==> r == Enrol(db, f, OfferFee(plan.value, today).0, OfferFee(plan.value, today).1, false, now))
  {
    var f := CleanAdmission(post, db.batches);
    if !f.IsValid() then Admitted(db, FormInvalid(f))
    else
      ValidAdmissionMeetsRules(post, db.batches);
      match GetSingle(plans, PlanFor(f.studentClass.value, f.medium.value))
      case ManyRows => Admitted(db, PlanNotUnique)
      case NoRow => Enrol(db, f, 0, false, true, now)
      case One(plan) => Enrol(db, f, OfferFee(plan, today).0, OfferFee(plan, today).1, false, now)
  }

  /** The rows written inside the view's transaction. */
  function Enrol(db: Db, f: AdmissionCheck, fee: nat, offerApplied: bool, planMissing: bool, now: Instant): (r: Admitted)
    requires Valid(db) && f.IsValid()
    requires f.batch.value.Some? ==> f.batch.value.value in db.batches
    ensures Valid(r.db)
    ensures
      var aid := db.nextAdmissionId;
      var a := NewAdmission(aid, Student(db.nextStudentId, f.name.value, f.mobile.value, f.whatsapp.value, f.address.value),
                            f.studentClass.value, f.board.value, f.medium.value, f.batch.value, fee, now);
      && aid !in db.admissions
      && r.outcome == Submitted(aid, offerApplied, planMissing)
      && r.db.admissions == db.admissions[aid := a]
      && r.db.payments == db.payments + [NewPayment(aid, fee, now)]
      && (f.batch.value.None? ==> r.db.batches == db.batches)
      && (f.batch.value.Some? ==> r.db.batches == db.batches[f.batch.value.value := TakeSeat(db.batches[f.batch.value.value])])
      && r.db.nextAdmissionId == db.nextAdmissionId + 1 && r.db.nextStudentId == db.nextStudentId + 1
  {
    var aid := db.nextAdmissionId;
    var student := Student(db.nextStudentId, f.name.value, f.mobile.value, f.whatsapp.value, f.address.value);
    var a := NewAdmission(aid, student, f.studentClass.value, f.board.value, f.medium.value, f.batch.value, fee, now);
    var batches := match f.batch.value
      case Some(k) => db.batches[k := TakeSeat(db.batches[k])]
      case None => db.batches;
    var db2 := Db(db.admissions[aid := a], db.payments + [NewPayment(aid, fee, now)], batches, aid + 1, db.nextStudentId + 1);
    assert forall i :: 0 <= i < |db.payments| ==> db2.payments[i] == db.payments[i];
    Admitted(db2, Submitted(aid, offerApplied, planMissing))
  }

  /** Taking a seat in a batch with room keeps every batch within capacity. */
  lemma EnrolKeepsSeatsWithinCapacity(db: Db, f: AdmissionCheck, fee: nat, offerApplied: bool, planMissing: bool, now: Instant)
    requires Valid(db) && f.IsValid() && SeatsWithinCapacity(db)
    requires f.batch.value.Some? ==> f.batch.value.value in db.batches && !db.batches[f.batch.value.value].IsFull()
    ensures SeatsWithinCapacity(Enrol(db, f, fee, offerApplied, planMissing, now).db)
  {
    var batches := Enrol(db, f, fee, offerApplied, planMissing, now).db.batches;
    if f.batch.value.Some? {
      var k := f.batch.value.value;
      assert batches == db.batches[k := TakeSeat(db.batches[k])];
    }
  }

  /** Admissions never overfill a batch: the form refuses a full batch, and
      the seat is taken only for the batch the form accepted. */
  lemma AdmitKeepsSeatsWithinCapacity(db: Db, plans: seq<FeePlan>, post: AdmissionPost, today: Date, now: Instant)
    requires Valid(db) && SeatsWithinCapacity(db)
    ensures SeatsWithinCapacity(Admit(db, plans, post, today, now).db)
  {
    var f := CleanAdmission(post, db.batches);
    if f.IsValid() {
      match GetSingle(plans, PlanFor(f.studentClass.value, f.medium.value))
      case ManyRows =>
      case NoRow => EnrolKeepsSeatsWithinCapacity(db, f, 0, false, true, now);
      case One(plan) => EnrolKeepsSeatsWithinCapacity(db, f, OfferFee(plan, today).0, OfferFee(plan, today).1, false, now);
    }
  }

  /** The fee of a new admission never exceeds the original price of its
      plan, is below it when the offer applied, and is 0 without a plan. */
  lemma IntakeFeeAtMostOriginal(db: Db, plans: seq<FeePlan>, post: AdmissionPost, today: Date, now: Instant)
    requires Valid(db)
    ensures var r := Admit(db, plans, post, today, now);
      r.outcome.Submitted? && r.outcome.admissionId in r.db.admissions ==>
        var a := r.db.admissions[r.outcome.admissionId];
        var plan := GetSingle(plans, PlanFor(a.studentClass, a.medium));
        && (plan.One? ==> a.feeAmount <= plan.value.originalFee && (r.outcome.offerApplied ==> a.feeAmount < plan.value.originalFee))
        && (plan.NoRow? ==> a.feeAmount == 0 && !r.outcome.offerApplied)
  {
    var f := CleanAdmission(post, db.batches);
    var r := Admit(db, plans, post, today, now);
    if f.IsValid() {
      var plan := GetSingle(plans, PlanFor(f.studentClass.value, f.medium.value));
      if plan.NoRow? {
        assert r == Enrol(db, f, 0, false, true, now);
        EnrolFee(db, plans, f, 0, false, true, now);
      } else if plan.One? {
        var fee := OfferFee(plan.value, today);
        assert r == Enrol(db, f, fee.0, fee.1, false, now);
        EnrolFee(db, plans, f, fee.0, fee.1, false, now);
      }
    }
  }

  /** The admission `Enrol` creates charges the given fee under the plan of
      its own class and medium, and so does its Pending payment. */
  lemma EnrolFee(db: Db, plans: seq<FeePlan>, f: AdmissionCheck, fee: nat, offerApplied: bool, planMissing: bool, now: Instant)
    requires Valid(db) && f.IsValid()
    requires f.batch.value.Some? ==> f.batch.value.value in db.batches
    ensures var r := Enrol(db, f, fee, offerApplied, planMissing, now);
      && r.outcome.Submitted? && r.outcome.admissionId in r.db.admissions && |r.db.payments| > 0
      && var a := r.db.admissions[r.outcome.admissionId];
      && GetSingle(plans, PlanFor(a.studentClass, a.medium)) == GetSingle(plans, PlanFor(f.studentClass.value, f.medium.value))
      && a.feeAmount == fee == r.db.payments[|r.db.payments| - 1].amount
      && r.db.payments[|r.db.payments| - 1].status == Pending
      && r.outcome.offerApplied == offerApplied
  {
    EnrolledRows(db, f, fee, offerApplied, planMissing, now);
  }

  /** The admission `Enrol` creates, and its payment, carry the given fee. */
  lemma EnrolledRows(db: Db, f: AdmissionCheck, fee: nat, offerApplied: bool, planMissing: bool, now: Instant)
    requires Valid(db) && f.IsValid()
    requires f.batch.value.Some? ==> f.batch.value.value in db.batches
    ensures var r := Enrol(db, f, fee, offerApplied, planMissing, now);
      && r.outcome.Submitted?
      && r.outcome.admissionId in r.db.admissions
      && var a := r.db.admissions[r.outcome.admissionId];
      && a.feeAmount == fee && a.studentClass == f.studentClass.value && a.medium == f.medium.value
      && r.outcome.offerApplied == offerApplied
      && |r.db.payments| > 0 && r.db.payments[|r.db.payments| - 1] == NewPayment(r.outcome.admissionId, fee, now)
  {
  }
}

=== FILE: models.dfy ===
/** Records and enumerations of the admissions app, and the two seat and fee
    rules the models themselves carry (admissions/models.py). Timestamps and
    dates are plain integers: an instant, and a day number. */
module Models {
  import opened Common

  type Instant = int
  type Date = int

  datatype ClassLevel = Class11 | Class12
  datatype Board = Cbse | Bseb
  datatype Medium = Hindi | English
  datatype FeeStatus = FeePending | FeePaid
  datatype PaymentStatus = Pending | Paid | Failed
  datatype PaymentMethod = Upi | Cash | BankTransfer | Online
  datatype PaymentGateway = Razorpay | PhonePe

  datatype Student = Student(id: nat, name: string, mobile: string, whatsapp: string, address: string)

  datatype Batch = Batch(
    name: string,
    medium: Medium,
    studentClass: ClassLevel,
    timing: string,
    totalSeats: nat,
    filledSeats: nat)
  {
    predicate IsFull() {
      filledSeats >= totalSeats
    }

    /** Seats still free, never negative. */
    function RemainingSeats(): (r: nat)
      ensures r <= totalSeats
      ensures r == 0 <==> IsFull()
      ensures !IsFull() ==> filledSeats + r == totalSeats
    {
      if totalSeats > filledSeats then totalSeats - filledSeats else 0
    }
  }

  datatype FeePlan = FeePlan(
    studentClass: ClassLevel,
    medium: Medium,
    originalFee: nat,
    offerFee: nat,
    offerEndDate: Date)

  /** The filter `student_class=..., medium=...` applied to fee plans. */
  function PlanFor(cls: ClassLevel, medium: Medium): FeePlan -> bool {
    (plan: FeePlan) => plan.studentClass == cls && plan.medium == medium
  }

  /** `get_fee`: the fee the plan of a class and medium charges on `today`, and
      whether the offer price was used; `None` when `.get()` raises because the
      plan is missing or not unique. */
  function GetFee(plans: seq<FeePlan>, cls: ClassLevel, medium: Medium, today: Date): (r: Option<(nat, bool)>)
    ensures r.Some? <==> GetSingle(plans, PlanFor(cls, medium)).One?
    ensures r.Some? ==> exists i :: (0 <= i < |plans| && PlanFor(cls, medium)(plans[i]) &&
      r.value == (if today <= plans[i].offerEndDate then (plans[i].offerFee, true) else (plans[i].originalFee, false)))
  {
    match GetSingle(plans, PlanFor(cls, medium))
    case One(plan) => Some(if today <= plan.offerEndDate then (plan.offerFee, true) else (plan.originalFee, false))
    case _ => None
  }

  datatype Admission = Admission(
    id: nat,
    student: Student,
    studentClass: ClassLevel,
    board: Board,
    medium: Medium,
    batch: Option<nat>,
    feeAmount: nat,
    feePaid: nat,
    feeStatus: FeeStatus,
    createdAt: Instant)

  /** The row `Admission.objects.create` writes: no fee paid yet. */
  function NewAdmission(
    id: nat, student: Student, cls: ClassLevel, board: Board, medium: Medium,
    batch: Option<nat>, feeAmount: nat, now: Instant): (r: Admission)
    ensures r.id == id && r.student == student && r.feeAmount == feeAmount
    ensures r.feePaid == 0 && r.feeStatus == FeePending
  {
    Admission(id, student, cls, board, medium, batch, feeAmount, 0, FeePending, now)
  }

  datatype Payment = Payment(
    admission: nat,
    amount: nat,
    gateway: Option<PaymentGateway>,
    status: PaymentStatus,
    payMethod: Option<PaymentMethod>,
    referenceId: string,
    orderId: string,
    paymentId: string,
    signature: string,
    gatewayResponse: string,
    notifiedAt: Option<Instant>,
    createdAt: Instant,
    paidAt: Option<Instant>)

  /** A payment as it stands before any gateway has answered for it. */
  predicate Untouched(p: Payment) {
    && p.status == Pending
    && p.gateway.None? && p.payMethod.None?
    && p.orderId == "" && p.paymentId == "" && p.referenceId == "" && p.signature == ""
    && p.gatewayResponse == ""
    && p.notifiedAt.None? && p.paidAt.None?
  }

  /** The row `Payment.objects.create(admission=..., amount=..., status=Pending)`
      writes: every other field keeps its declared default. */
  function NewPayment(admission: nat, amount: nat, now: Instant): (r: Payment)
    ensures r.admission == admission && r.amount == amount && Untouched(r)
  {
    Payment(admission, amount, None, Pending, None, "", "", "", "", "", None, now, None)
  }

  /** The admission after a paid payment of `amount` has been recorded on it. */
  function Settled(a: Admission, amount: nat): Admission {
    a.(feeStatus := FeePaid, feePaid := amount)
  }

  /** Fields of a payment that no reconciliation step writes. */
  predicate SameIdentity(p: Payment, q: Payment) {
    && q.admission == p.admission
    && q.amount == p.amount
    && q.payMethod == p.payMethod
    && q.createdAt == p.createdAt
  }
}

=== FILE: notify.dfy ===
/** The one-shot payment notification (`_maybe_send_payment_notifications`
    and the SMS/WhatsApp helpers it calls, admissions/views.py). Whether a
    channel's HTTP call succeeds is an input. */
module Notify {
  import opened Common
  import opened Text
  import opened Models
  import opened External

  /** `_sms_configured` */
  predicate SmsConfigured(s: Settings) {
    Lower(s.smsProvider) == "twilio" &&
    s.twilioAccountSid != "" && s.twilioAuthToken != "" && s.twilioFromNumber != ""
  }

  /** `_whatsapp_configured` */
  predicate WhatsAppConfigured(s: Settings) {
    Lower(s.whatsappProvider) == "cloud" &&
    s.whatsappPhoneNumberId != "" && s.whatsappAccessToken != ""
  }

  /** `_format_e164`: the stripped number, prefixed with the default country
      code unless it already starts with `+`. */
  function FormatE164(defaultCc: string, number: string): (r: string)
    ensures |Strip(number)| <= |r| && r[|r| - |Strip(number)|..] == Strip(number)
    ensures |r| > 0 && r[0] == '+' <==> (|Strip(number)| > 0 && Strip(number)[0] == '+') || (|defaultCc| > 0 && defaultCc[0] == '+')
    ensures |Strip(number)| > 0 && Strip(number)[0] == '+' ==> r == Strip(number)
    ensures !(|Strip(number)| > 0 && Strip(number)[0] == '+') ==>
      |r| == |defaultCc| + |Strip(number)| && r[..|defaultCc|] == defaultCc
  {
    var n := Strip(number);
    if |n| > 0 && n[0] == '+' then n else defaultCc + n
  }

  /** A number already in E.164 form is left as it is: formatting twice is
      formatting once, for a country code such as `+91`. */
  lemma {:induction false} FormatE164Idempotent(defaultCc: string, number: string)
    requires |defaultCc| > 0 && defaultCc[0] == '+' && !IsSpace(defaultCc[|defaultCc| - 1])
    ensures FormatE164(defaultCc, FormatE164(defaultCc, number)) == FormatE164(defaultCc, number)
  {
    var n := Strip(number);
    var r := FormatE164(defaultCc, number);
    if |n| > 0 && n[0] == '+' {
      StripIdempotent(number);
    } else {
      assert r == defaultCc + n;
      assert r[0] == '+';
      assert r[|r| - 1] == if |n| > 0 then n[|n| - 1] else defaultCc[|defaultCc| - 1];
      StripKeepsTrimmed(r);
    }
  }

  /** `s.replace(c, "")` */
  function Without(s: string, c: char): (r: string)
    ensures |r| <= |s|
    ensures forall x :: x in r <==> x in s && x != c
    ensures forall x :: multiset(r)[x] == if x == c then 0 else multiset(s)[x]
    ensures c !in s ==> r == s
    decreases |s|
  {
    if |s| == 0 then []
    else
      assert s == [s[0]] + s[1..];
      (if s[0] == c then [] else [s[0]]) + Without(s[1..], c)
  }

  /** Removal works piece by piece, so the kept characters stay in their order. */
  lemma {:induction false} WithoutConcat(a: string, b: string, c: char)
    ensures Without(a + b, c) == Without(a, c) + Without(b, c)
    decreases |a|
  {
    if |a| > 0 {
      assert (a + b)[1..] == a[1..] + b;
      WithoutConcat(a[1..], b, c);
    } else {
      assert a + b == b;
    }
  }

  /** The fixed-template message. */
  function PaymentMessage(admissionId: nat, amount: nat): string {
    "Payment received for Admission #" + ShowNat(admissionId) + ". Amount: INR " + ShowNat(amount) +
    ". Thank you - Pradhan Chemistry Classes."
  }

  /** Notifications are on, none has been recorded, and a configured channel reports success. */
  predicate Fires(s: Settings, p: Payment, d: Delivery) {
    && s.sendPaymentNotifications
    && p.notifiedAt.None?
    && ((SmsConfigured(s) && d.smsOk) || (WhatsAppConfigured(s) && d.whatsappOk))
  }

  datatype Notified = Notified(payment: Payment, sent: seq<Outbound>)

  /** The calls made to the configured channels: SMS to the E.164 form of the
      number, WhatsApp to the same without its `+`. */
  function Dispatches(s: Settings, to: string, message: string): (r: seq<Outbound>)
    ensures |r| == (if SmsConfigured(s) then 1 else 0) + (if WhatsAppConfigured(s) then 1 else 0)
    ensures forall m :: m in r ==> m == Sms(to, message) || m == WhatsApp(Without(to, '+'), message)
    ensures |r| == 2 ==> r[0].Sms? && r[1].WhatsApp?
    ensures Sms(to, message) in r <==> SmsConfigured(s)
    ensures WhatsApp(Without(to, '+'), message) in r <==> WhatsAppConfigured(s)
    ensures forall m :: m in r ==> (m.Sms? || m.WhatsApp?) && m.body == message
    ensures forall m :: m in r && m.WhatsApp? ==> '+' !in m.to
  {
    (if SmsConfigured(s) then [Sms(to, message)] else []) +
    (if WhatsAppConfigured(s) then [WhatsApp(Without(to, '+'), message)] else [])
  }

  /** `_maybe_send_payment_notifications` */
  function MaybeNotify(s: Settings, a: Admission, p: Payment, now: Instant, d: Delivery): (r: Notified)
    ensures r.payment == p.(notifiedAt := r.payment.notifiedAt)
    ensures r.payment.notifiedAt != p.notifiedAt <==> Fires(s, p, d)
    ensures r.payment.notifiedAt != p.notifiedAt ==> r.payment.notifiedAt == Some(now)
    ensures !s.sendPaymentNotifications || p.notifiedAt.Some? ==> r.sent == []
    ensures s.sendPaymentNotifications && p.notifiedAt.None? ==>
      r.sent == Dispatches(s, FormatE164(s.defaultCountryCode, a.student.mobile), PaymentMessage(a.id, p.amount))
  {
    if !s.sendPaymentNotifications || p.notifiedAt.Some? then Notified(p, [])
    else
      var sent := Dispatches(s, FormatE164(s.defaultCountryCode, a.student.mobile), PaymentMessage(a.id, p.amount));
      var delivered := (SmsConfigured(s) && d.smsOk) || (WhatsAppConfigured(s) && d.whatsappOk);
      Notified(if delivered then p.(notifiedAt := Some(now)) else p, sent)
  }

  /** Once a notification has been recorded, no later call sends anything or
      changes the payment, whatever the channels would answer. */
  lemma NotifiesAtMostOnce(s: Settings, a: Admission, p: Payment, now1: Instant, d1: Delivery, a2: Admission, now2: Instant, d2: Delivery)
    requires Fires(s, p, d1)
    ensures var first := MaybeNotify(s, a, p, now1, d1);
      MaybeNotify(s, a2, first.payment, now2, d2) == Notified(first.payment, [])
  {
  }
}

=== FILE: reconcile.dfy ===
/** Reconciliation of a PhonePe report into a payment and its admission
    (`_map_phonepe_status` and `_update_payment_from_phonepe`,
    admissions/views.py). */
module Reconcile {
  import opened Common
  import opened Text
  import opened Models
  import opened Store
  import opened External
  import opened Notify

  const SuccessStates: set<string> := {"COMPLETED", "SUCCESS"}
  const SuccessCodes: set<string> := {"PAYMENT_SUCCESS", "SUCCESS"}
  const FailureStates: set<string> := {"FAILED", "ERROR"}
  const FailureCodes: set<string> := {"PAYMENT_ERROR", "FAILED"}

  /** `value` equals some word of `vocabulary` when case is ignored. */
  predicate MatchesAny(value: string, vocabulary: set<string>) {
    exists w :: w in vocabulary && Upper(value) == Upper(w)
  }

  lemma VocabularyIsUpperCase()
    ensures forall w :: w in SuccessStates + SuccessCodes + FailureStates + FailureCodes ==> Upper(w) == w
  {
    forall w | w in SuccessStates + SuccessCodes + FailureStates + FailureCodes
      ensures Upper(w) == w
    {
      UpperKeepsUpperCase(w);
    }
  }

  lemma MatchesAnyIsMembership(value: string, vocabulary: set<string>)
    requires forall w :: w in vocabulary ==> Upper(w) == w
    ensures MatchesAny(value, vocabulary) <==> Upper(value) in vocabulary
  {
    if Upper(value) in vocabulary {
      assert Upper(Upper(value)) == Upper(value);
    }
  }

  /** `_map_phonepe_status`: success wins over failure, and anything else is Pending. */
  function MapStatus(state: string, code: string): (r: PaymentStatus)
    ensures r == Paid <==> MatchesAny(state, SuccessStates) || MatchesAny(code, SuccessCodes)
    ensures r == Failed <==>
      !(MatchesAny(state, SuccessStates) || MatchesAny(code, SuccessCodes)) &&
      (MatchesAny(state, FailureStates) || MatchesAny(code, FailureCodes))
  {
    VocabularyIsUpperCase();
    MatchesAnyIsMembership(state, SuccessStates);
    MatchesAnyIsMembership(code, SuccessCodes);
    MatchesAnyIsMembership(state, FailureStates);
    MatchesAnyIsMembership(code, FailureCodes);
    var stateUpper := Upper(state);
    var codeUpper := Upper(code);
    if stateUpper in SuccessStates || codeUpper in SuccessCodes then Paid
    else if stateUpper in FailureStates || codeUpper in FailureCodes then Failed
    else Pending
  }

  /** The mapping only sees the upper-cased words. */
  lemma MapStatusIgnoresCase(state1: string, code1: string, state2: string, code2: string)
    requires Upper(state1) == Upper(state2) && Upper(code1) == Upper(code2)
    ensures MapStatus(state1, code1) == MapStatus(state2, code2)
  {
  }

  /** Each vocabulary belongs to its own field: `PAYMENT_SUCCESS` as a state or
      `COMPLETED` as a code maps to Pending, and so does `ERROR` as a code. */
  lemma VocabularyIsPerField()
    ensures MapStatus("PAYMENT_SUCCESS", "") == Pending
    ensures MapStatus("", "COMPLETED") == Pending
    ensures MapStatus("", "ERROR") == Pending
    ensures MapStatus("completed", "PAYMENT_ERROR") == Paid
  {
    assert Upper("PAYMENT_SUCCESS") == "PAYMENT_SUCCESS";
    assert Upper("COMPLETED") == "COMPLETED";
    assert Upper("ERROR") == "ERROR";
    assert Upper("completed") == "COMPLETED";
    assert Upper("PAYMENT_ERROR") == "PAYMENT_ERROR";
    assert Upper("") == "";
  }

  /** `data.state or state or ""` */
  function StateOf(rep: Report): string {
    OrElse(rep.data.state, rep.state.GetOr(""))
  }

  /** `data.responseCode or code or ""` */
  function CodeOf(rep: Report): string {
    OrElse(rep.data.responseCode, rep.code.GetOr(""))
  }

  /** `data.transactionId`, or "" */
  function TransactionOf(rep: Report): string {
    rep.data.transactionId.GetOr("")
  }

  /** `data.utr or data.providerReferenceId or ""` */
  function ReferenceOf(rep: Report): string {
    OrElse(rep.data.utr, rep.data.providerReferenceId.GetOr(""))
  }

  /** What a view leaves behind: the rows, its answer, and the calls it made. */
  datatype Step<+O> = Step(db: Db, outcome: O, sent: seq<Outbound>)

  datatype Reconciled = Reconciled(payment: Payment, admission: Admission, sent: seq<Outbound>)

  /** `_update_payment_from_phonepe`: the gateway fields are overwritten, the
      status becomes the mapped one whatever it was, and only a Paid outcome
      stamps `paid_at`, settles the admission and tries the notification. */
  function UpdateFromPhonePe(s: Settings, dump: Report -> string, p: Payment, a: Admission, rep: Report, now: Instant, d: Delivery): (r: Reconciled)
    ensures r.payment.status == MapStatus(StateOf(rep), CodeOf(rep))
    ensures r.payment.gateway == Some(PhonePe)
    ensures r.payment.paymentId == TransactionOf(rep) && r.payment.referenceId == ReferenceOf(rep)
    ensures r.payment.gatewayResponse == dump(rep)
    ensures SameIdentity(p, r.payment) && r.payment.orderId == p.orderId && r.payment.signature == p.signature
    ensures r.payment.paidAt == (if r.payment.status == Paid then Some(now) else p.paidAt)
    ensures r.payment.status != Paid ==> r.payment.notifiedAt == p.notifiedAt && r.admission == a && r.sent == []
    ensures r.payment.status == Paid ==> r.admission == Settled(a, p.amount)
    ensures r.payment.status == Paid ==>
      (r.payment.notifiedAt != p.notifiedAt <==> Fires(s, p, d)) &&
      (r.payment.notifiedAt != p.notifiedAt ==> r.payment.notifiedAt == Some(now)) &&
      r.sent == (if s.sendPaymentNotifications && p.notifiedAt.None?
                 then Dispatches(s, FormatE164(s.defaultCountryCode, a.student.mobile), PaymentMessage(a.id, p.amount))
                 else [])
  {
    var status := MapStatus(StateOf(rep), CodeOf(rep));
    var p1 := p.(
      gateway := Some(PhonePe),
      paymentId := TransactionOf(rep),
      referenceId := ReferenceOf(rep),
      gatewayResponse := dump(rep),
      status := status,
      paidAt := if status == Paid then Some(now) else p.paidAt);
    if status == Paid then
      var a1 := Settled(a, p.amount);
      var n := MaybeNotify(s, a1, p1, now, d);
      Reconciled(n.payment, a1, n.sent)
    else
      Reconciled(p1, a, [])
  }

  /** Replaying a report gives the same payment and admission, except that a
      Paid outcome re-stamps `paid_at` with the new time; once a notification
      has been recorded the replay sends nothing. */
  lemma ReplayOnlyRestampsPaidAt(
    s: Settings, dump: Report -> string, p: Payment, a: Admission, rep: Report,
    now1: Instant, d1: Delivery, now2: Instant, d2: Delivery)
    ensures
      var r1 := UpdateFromPhonePe(s, dump, p, a, rep, now1, d1);
      var r2 := UpdateFromPhonePe(s, dump, r1.payment, r1.admission, rep, now2, d2);
      && r2.admission == r1.admission
      && r2.payment == r1.payment.(paidAt := r2.payment.paidAt, notifiedAt := r2.payment.notifiedAt)
      && (r1.payment.status == Paid ==> r2.payment.paidAt == Some(now2))
      && (r1.payment.notifiedAt.Some? ==> r2.sent == [] && r2.payment.notifiedAt == r1.payment.notifiedAt)
  {
  }

  /** Paid is not terminal: a report mapping to Failed turns a Paid payment
      Failed, while the admission keeps its Paid fee status. */
  lemma FailedReportRegressesPaid(s: Settings, dump: Report -> string, p: Payment, a: Admission, now: Instant, d: Delivery)
    requires p.status == Paid && a.feeStatus == FeePaid
    ensures
      var rep := Report(TxnData(None, Some("FAILED"), None, None, None, None), None, None);
      var r := UpdateFromPhonePe(s, dump, p, a, rep, now, d);
      r.payment.status == Failed && r.admission.feeStatus == FeePaid
  {
    assert Upper("FAILED") == "FAILED";
    assert Upper("") == "";
  }

  /** The step written back into the rows: payment `i` and its admission. */
  function ReconcileAt(s: Settings, dump: Report -> string, db: Db, i: nat, rep: Report, now: Instant, d: Delivery): (r: (Db, seq<Outbound>))
    requires Valid(db) && i < |db.payments|
    ensures Valid(r.0) && OnlyTouches(db, r.0, i)
    ensures var out := UpdateFromPhonePe(s, dump, db.payments[i], db.admissions[db.payments[i].admission], rep, now, d);
      r.0.payments[i] == out.payment && r.0.admissions[db.payments[i].admission] == out.admission && r.1 == out.sent
  {
    var p := db.payments[i];
    var out := UpdateFromPhonePe(s, dump, p, db.admissions[p.admission], rep, now, d);
    (Write(db, i, out.payment, out.admission), out.sent)
  }

  /** A step keeps every payment's order id, so lookups by order id see the same rows. */
  lemma ReconcileKeepsOrders(s: Settings, dump: Report -> string, db: Db, i: nat, rep: Report, now: Instant, d: Delivery)
    requires Valid(db) && i < |db.payments|
    ensures var db2 := ReconcileAt(s, dump, db, i, rep, now, d).0;
      && |db2.payments| == |db.payments|
      && forall j :: 0 <= j < |db.payments| ==> db2.payments[j].orderId == db.payments[j].orderId
  {
  }

  /** Reconciling the same report into the same payment twice leaves the
      admission as the first step left it, keeps every recorded notification
      stamp, and sends nothing the second time once a notification is recorded. */
  lemma ReconcileTwice(s: Settings, dump: Report -> string, db: Db, i: nat, rep: Report,
                       now1: Instant, d1: Delivery, now2: Instant, d2: Delivery)
    requires Valid(db) && i < |db.payments|
    ensures var db1 := ReconcileAt(s, dump, db, i, rep, now1, d1).0;
      var step2 := ReconcileAt(s, dump, db1, i, rep, now2, d2);
      && step2.0.admissions == db1.admissions
      && |step2.0.payments| == |db1.payments|
      && (forall j :: 0 <= j < |db1.payments| && db1.payments[j].notifiedAt.Some? ==>
            step2.0.payments[j].notifiedAt == db1.payments[j].notifiedAt)
      && (db1.payments[i].notifiedAt.Some? ==> step2.1 == [])
  {
    var p := db.payments[i];
    var a := db.admissions[p.admission];
    var db1 := ReconcileAt(s, dump, db, i, rep, now1, d1).0;
    var step2 := ReconcileAt(s, dump, db1, i, rep, now2, d2);
    ReplayOnlyRestampsPaidAt(s, dump, p, a, rep, now1, d1, now2, d2);
    assert step2.0.admissions[p.admission] == db1.admissions[p.admission];
    assert step2.0.admissions == db1.admissions;
  }
}

=== FILE: redirect.dfy ===
/** The browser redirect after a Razorpay checkout (`payment_verify`,
    admissions/views.py). */
module RedirectVerify {
  import opened Common
  import opened Text
  import opened Models
  import opened Store
  import opened External
  import opened Signatures
  import opened Notify
  import opened Reconcile

  /** The three POST fields; a missing field reads as "". */
  datatype VerifyForm = VerifyForm(orderId: string, paymentId: string, signature: string)

  /** `ServerError` is the 500 answer to an exception the view does not catch. */
  datatype VerifyOutcome = RecordNotFound | VerificationFailed(admissionId: nat) | PaymentSuccessful(admissionId: nat) | ServerError

  /** `payment_verify` as the code has it: the payment is looked up by the
      posted order id, whatever that id is. */
  function PaymentVerifyAsWritten(s: Settings, crypto: Crypto, db: Db, f: VerifyForm, now: Instant, d: Delivery): (r: Step<VerifyOutcome>)
    requires Valid(db)
    ensures Valid(r.db) && |r.db.payments| == |db.payments|
    ensures PaymentWithOrder(db, f.orderId).None? ==> r == Step(db, RecordNotFound, [])
    ensures (PaymentWithOrder(db, f.orderId).Some? &&
             RazorpayCheckRaises(crypto, f.orderId, f.paymentId, f.signature, s.razorpayKeySecret)) ==>
      r == Step(db, ServerError, [])
    ensures (PaymentWithOrder(db, f.orderId).Some? &&
             !RazorpayCheckRaises(crypto, f.orderId, f.paymentId, f.signature, s.razorpayKeySecret)) ==>
      var i := PaymentWithOrder(db, f.orderId).value;
      var p := db.payments[i];
      var q := r.db.payments[i];
      && OnlyTouches(db, r.db, i)
      && SameIdentity(p, q)
      && q.orderId == p.orderId && q.gateway == p.gateway && q.referenceId == p.referenceId
      && q.gatewayResponse == p.gatewayResponse
      && q.paymentId == f.paymentId && q.signature == f.signature
      && (!VerifyRazorpay(crypto, f.orderId, f.paymentId, f.signature, s.razorpayKeySecret) ==>
            && r.outcome == VerificationFailed(p.admission)
            && q.status == Failed && q.paidAt == p.paidAt && q.notifiedAt == p.notifiedAt
            && r.db.admissions == db.admissions && r.sent == [])
      && (VerifyRazorpay(crypto, f.orderId, f.paymentId, f.signature, s.razorpayKeySecret) ==>
            && r.outcome == PaymentSuccessful(p.admission)
            && q.status == Paid && q.paidAt == Some(now)
            && r.db.admissions[p.admission] == Settled(db.admissions[p.admission], p.amount)
            && (q.notifiedAt != p.notifiedAt <==> Fires(s, p, d))
            && (q.notifiedAt != p.notifiedAt ==> q.notifiedAt == Some(now))
            && r.sent == (if s.sendPaymentNotifications && p.notifiedAt.None?
                          then Dispatches(s, FormatE164(s.defaultCountryCode, db.admissions[p.admission].student.mobile),
                                          PaymentMessage(p.admission, p.amount))
                          else []))
  {
    match PaymentWithOrder(db, f.orderId)
    case None => Step(db, RecordNotFound, [])
    case Some(i) =>
      var p := db.payments[i];
      if RazorpayCheckRaises(crypto, f.orderId, f.paymentId, f.signature, s.razorpayKeySecret) then
        Step(db, ServerError, [])
      else if !VerifyRazorpay(crypto, f.orderId, f.paymentId, f.signature, s.razorpayKeySecret) then
        var failed := p.(status := Failed, paymentId := f.paymentId, signature := f.signature);
        Step(WritePayment(db, i, failed), VerificationFailed(p.admission), [])
      else
        var paid := p.(status := Paid, paymentId := f.paymentId, signature := f.signature, paidAt := Some(now));
        var a := Settled(db.admissions[p.admission], p.amount);
        var n := MaybeNotify(s, a, paid, now, d);
        Step(Write(db, i, n.payment, a), PaymentSuccessful(p.admission), n.sent)
  }

  /** An empty posted order id matches the first payment that has no order id
      yet (one created at intake, or settled offline by the admin action), and
      the failed signature check then marks it Failed, even when it was Paid. */
  lemma {:induction false} EmptyOrderIdFailsBlankPayment(s: Settings, crypto: Crypto, db: Db, i: nat, now: Instant, d: Delivery)
    requires Valid(db) && i < |db.payments|
    requires db.payments[i].orderId == "" && db.payments[i].status == Paid
    requires forall j :: 0 <= j < i ==> db.payments[j].orderId != ""
    ensures
      var r := PaymentVerifyAsWritten(s, crypto, db, VerifyForm("", "", ""), now, d);
      && r.db.payments[i].status == Failed
      && r.db.admissions == db.admissions
  {
    assert PaymentWithOrder(db, "") == Some(i);
  }

  /** `payment_verify` with an empty order id treated as an unknown payment. */
  function PaymentVerify(s: Settings, crypto: Crypto, db: Db, f: VerifyForm, now: Instant, d: Delivery): (r: Step<VerifyOutcome>)
    requires Valid(db)
    ensures Valid(r.db)
    ensures forall j :: 0 <= j < |db.payments| && db.payments[j].orderId == "" ==>
      j < |r.db.payments| && r.db.payments[j] == db.payments[j]
    ensures f.orderId != "" ==> r == PaymentVerifyAsWritten(s, crypto, db, f, now, d)
    ensures f.orderId == "" ==> r == Step(db, RecordNotFound, [])
  {
    if f.orderId == "" then Step(db, RecordNotFound, [])
    else PaymentVerifyAsWritten(s, crypto, db, f, now, d)
  }

  /** The redirect succeeds exactly for a known, non-empty order id whose
      posted signature is the (ASCII) HMAC of the posted ids under a set
      secret. */
  lemma SucceedsExactlyWhenSigned(s: Settings, crypto: Crypto, db: Db, f: VerifyForm, now: Instant, d: Delivery)
    requires Valid(db)
    ensures PaymentVerify(s, crypto, db, f, now, d).outcome.PaymentSuccessful? <==>
      && f.orderId != "" && f.paymentId != "" && f.signature != "" && s.razorpayKeySecret != ""
      && PaymentWithOrder(db, f.orderId).Some?
      && f.signature == RazorpaySignature(crypto, f.orderId, f.paymentId, s.razorpayKeySecret)
      && IsAscii(f.signature)
  {
  }

  /** A forged redirect (any signature other than the HMAC of the posted ids)
      never settles an admission or sends a notification. */
  lemma ForgedSignatureSettlesNothing(s: Settings, crypto: Crypto, db: Db, f: VerifyForm, now: Instant, d: Delivery)
    requires Valid(db)
    requires f.signature != RazorpaySignature(crypto, f.orderId, f.paymentId, s.razorpayKeySecret)
    ensures var r := PaymentVerify(s, crypto, db, f, now, d);
      && r.db.admissions == db.admissions
      && r.sent == []
      && (forall j :: 0 <= j < |db.payments| ==> r.db.payments[j].paidAt == db.payments[j].paidAt)
      && !r.outcome.PaymentSuccessful?
  {
  }
}

=== FILE: signatures.dfy ===
/** Integrity codes of the two gateways (admissions/views.py). Only the shape
    of the hashed strings is modelled; the digests come from `Crypto`. */
module Signatures {
  import opened Common
  import opened Text
  import opened External

  const Separator: string := "###"

  /** The signature Razorpay sends back: HMAC-SHA-256 of `order_id|payment_id` under the key secret. */
  function RazorpaySignature(crypto: Crypto, orderId: string, paymentId: string, secret: string): string {
    crypto.hmacSha256Hex(secret, orderId + "|" + paymentId)
  }

  /** `_verify_razorpay_signature` */
  predicate VerifyRazorpay(crypto: Crypto, orderId: string, paymentId: string, signature: string, secret: string) {
    if orderId == "" || paymentId == "" || signature == "" || secret == "" then false
    else RazorpaySignature(crypto, orderId, paymentId, secret) == signature
  }

  /** `hmac.compare_digest` on two `str` values raises `TypeError` unless both are ASCII. */
  predicate CompareDigestRaises(a: string, b: string) {
    !IsAscii(a) || !IsAscii(b)
  }

  /** `_verify_razorpay_signature` raises instead of answering: the four inputs
      pass the emptiness test and the comparison is handed a non-ASCII string. */
  predicate RazorpayCheckRaises(crypto: Crypto, orderId: string, paymentId: string, signature: string, secret: string) {
    && orderId != "" && paymentId != "" && signature != "" && secret != ""
    && CompareDigestRaises(RazorpaySignature(crypto, orderId, paymentId, secret), signature)
  }

  /** Merchant id, salt key and salt index, the settings the callback needs. */
  predicate CallbackConfigured(s: Settings) {
    s.phonepeMerchantId != "" && s.phonepeSaltKey != "" && s.phonepeSaltIndex != ""
  }

  /** The same three and the base URL, the settings an outbound PhonePe call needs. */
  predicate PhonePeReady(s: Settings) {
    CallbackConfigured(s) && s.phonepeBaseUrl != ""
  }

  /** `_phonepe_checksum`: digest of `payload ++ path ++ salt`, then `###` and the salt index. */
  function PhonePeChecksum(crypto: Crypto, payloadB64: string, apiPath: string, saltKey: string, saltIndex: string): (r: string)
    ensures |r| >= |Separator| + |saltIndex|
    ensures r[|r| - |saltIndex|..] == saltIndex
    ensures r[|r| - |saltIndex| - |Separator|..|r| - |saltIndex|] == Separator
    ensures r[..|r| - |saltIndex| - |Separator|] == crypto.sha256Hex(payloadB64 + apiPath + saltKey)
  {
    crypto.sha256Hex(payloadB64 + apiPath + saltKey) + Separator + saltIndex
  }

  /** `_verify_phonepe_callback`: the header must equal the digest of
      `response ++ salt` (no API path), then `###` and the salt index. */
  predicate VerifyPhonePeCallback(crypto: Crypto, responseB64: string, header: Option<string>, saltKey: string, saltIndex: string) {
    if !Truthy(header) then false
    else crypto.sha256Hex(responseB64 + saltKey) + Separator + saltIndex == header.value
  }

  /** `_verify_phonepe_callback` raises instead of answering: a header is
      present and the comparison is handed a non-ASCII string. */
  predicate CallbackCheckRaises(crypto: Crypto, responseB64: string, header: Option<string>, saltKey: string, saltIndex: string) {
    Truthy(header) && CompareDigestRaises(crypto.sha256Hex(responseB64 + saltKey) + Separator + saltIndex, header.value)
  }

  /** The callback check is the outgoing checksum with an empty API path: the
      header is accepted exactly when it equals that checksum. */
  lemma CallbackIsPathlessChecksum(crypto: Crypto, responseB64: string, header: Option<string>, saltKey: string, saltIndex: string)
    ensures VerifyPhonePeCallback(crypto, responseB64, header, saltKey, saltIndex) <==>
      header == Some(PhonePeChecksum(crypto, responseB64, "", saltKey, saltIndex))
  {
    assert responseB64 + "" + saltKey == responseB64 + saltKey;
    var expected := PhonePeChecksum(crypto, responseB64, "", saltKey, saltIndex);
    assert |expected| > 0;
  }

  /** A missing or empty header never passes. */
  lemma CallbackNeedsHeader(crypto: Crypto, responseB64: string, saltKey: string, saltIndex: string)
    ensures !VerifyPhonePeCallback(crypto, responseB64, None, saltKey, saltIndex)
    ensures !VerifyPhonePeCallback(crypto, responseB64, Some(""), saltKey, saltIndex)
  {
  }
}

=== FILE: store.dfy ===
/** The rows the payment code reads and writes, as one immutable value. The
    payments are kept in primary-key order, so `.first()` is the lowest index. */
module Store {
  import opened Common
  import opened Models

  datatype Db = Db(
    admissions: map<nat, Admission>,
    payments: seq<Payment>,
    batches: map<nat, Batch>,
    nextAdmissionId: nat,
    nextStudentId: nat)

  /** What the schema guarantees: every payment points at an existing admission,
      no admission has two payments (the one-to-one key), admissions are stored
      under their own id below the next id to be issued, and a batch an
      admission names exists. */
  predicate Valid(db: Db) {
    && (forall i :: 0 <= i < |db.payments| ==> db.payments[i].admission in db.admissions)
    && (forall i, j :: 0 <= i < j < |db.payments| ==> db.payments[i].admission != db.payments[j].admission)
    && (forall a :: a in db.admissions ==> a < db.nextAdmissionId && db.admissions[a].id == a)
    && (forall a :: a in db.admissions && db.admissions[a].batch.Some? ==> db.admissions[a].batch.value in db.batches)
  }

  function HasOrder(orderId: string): Payment -> bool {
    (p: Payment) => p.orderId == orderId
  }

  function OfAdmission(admissionId: nat): Payment -> bool {
    (p: Payment) => p.admission == admissionId
  }

  /** `Payment.objects.filter(order_id=orderId).first()` */
  function PaymentWithOrder(db: Db, orderId: string): (r: Option<nat>)
    ensures r.Some? ==> r.value < |db.payments| && db.payments[r.value].orderId == orderId
    ensures r.Some? ==> forall j :: 0 <= j < r.value ==> db.payments[j].orderId != orderId
    ensures r.None? ==> forall j :: 0 <= j < |db.payments| ==> db.payments[j].orderId != orderId
  {
    FirstWhere(db.payments, HasOrder(orderId))
  }

  /** `Payment.objects.filter(admission_id=admissionId).first()` */
  function PaymentOfAdmission(db: Db, admissionId: nat): (r: Option<nat>)
    ensures r.Some? ==> r.value < |db.payments| && db.payments[r.value].admission == admissionId
    ensures r.None? ==> forall j :: 0 <= j < |db.payments| ==> db.payments[j].admission != admissionId
  {
    FirstWhere(db.payments, OfAdmission(admissionId))
  }

  /** `db2` differs from `db` at most in payment `i` and in the admission it belongs to. */
  predicate OnlyTouches(db: Db, db2: Db, i: nat)
    requires i < |db.payments|
  {
    && |db2.payments| == |db.payments|
    && (forall j :: 0 <= j < |db.payments| && j != i ==> db2.payments[j] == db.payments[j])
    && db2.admissions.Keys == db.admissions.Keys
    && (forall a :: a in db.admissions && a != db.payments[i].admission ==> db2.admissions[a] == db.admissions[a])
    && db2.batches == db.batches
    && db2.nextAdmissionId == db.nextAdmissionId
    && db2.nextStudentId == db.nextStudentId
  }

  /** Writes payment `i` back, and optionally the admission it belongs to. */
  function Write(db: Db, i: nat, p: Payment, a: Admission): (r: Db)
    requires Valid(db) && i < |db.payments|
    requires p.admission == db.payments[i].admission && a.id == p.admission
    requires a.batch == db.admissions[p.admission].batch
    ensures Valid(r)
    ensures OnlyTouches(db, r, i)
    ensures r.payments[i] == p && r.admissions[p.admission] == a
  {
    db.(payments := db.payments[i := p], admissions := db.admissions[p.admission := a])
  }

  /** Writes payment `i` back, leaving every admission as it was. */
  function WritePayment(db: Db, i: nat, p: Payment): (r: Db)
    requires Valid(db) && i < |db.payments|
    requires p.admission == db.payments[i].admission
    ensures Valid(r)
    ensures OnlyTouches(db, r, i)
    ensures r.admissions == db.admissions && r.payments[i] == p
  {
    db.(payments := db.payments[i := p])
  }

  /** Inserts a payment for an admission that has none yet. */
  function AddPayment(db: Db, p: Payment): (r: Db)
    requires Valid(db) && p.admission in db.admissions
    requires PaymentOfAdmission(db, p.admission).None?
    ensures Valid(r)
    ensures r.payments == db.payments + [p]
    ensures r.admissions == db.admissions && r.batches == db.batches
    ensures r.nextAdmissionId == db.nextAdmissionId && r.nextStudentId == db.nextStudentId
  {
    db.(payments := db.payments + [p])
  }
}

=== FILE: success.dfy ===
/** The page shown after an admission (`admission_success`,
    admissions/views.py). Its one write gives a Paid payment that lacks a
    `paid_at` the current time; what the page displays (the UPI link, whether
    online payment is ready) is not modelled. */
module SuccessPage {
  import opened Common
  import opened Models
  import opened Store
  import opened Reconcile
  import Checkout

  /** `AdmissionMissing` is the uncaught `DoesNotExist` of an unknown id. */
  datatype PageOutcome = AdmissionMissing | Shown

  /** `admission_success` */
  function AdmissionSuccess(db: Db, aid: nat, now: Instant): (r: Step<PageOutcome>)
    requires Valid(db)
    ensures Valid(r.db) && r.sent == []
    ensures r.db.admissions == db.admissions && r.db.batches == db.batches
    ensures r.db.nextAdmissionId == db.nextAdmissionId && r.db.nextStudentId == db.nextStudentId
    ensures aid !in db.admissions ==> r == Step(db, AdmissionMissing, [])
    ensures aid in db.admissions ==> r.outcome == Shown
    ensures |r.db.payments| == |db.payments|
    ensures forall j :: 0 <= j < |db.payments| ==>
      && r.db.payments[j] == db.payments[j].(paidAt := r.db.payments[j].paidAt)
      && (r.db.payments[j].paidAt != db.payments[j].paidAt ==>
            && db.payments[j].admission == aid && db.payments[j].status == Paid
            && db.payments[j].paidAt.None? && r.db.payments[j].paidAt == Some(now))
    ensures aid in db.admissions && PaymentOfAdmission(db, aid).Some? ==>
      var q := r.db.payments[PaymentOfAdmission(db, aid).value];
      q.status == Paid ==> q.paidAt.Some?
  {
    if aid !in db.admissions then Step(db, AdmissionMissing, [])
    else
      match PaymentOfAdmission(db, aid)
      case None => Step(db, Shown, [])
      case Some(i) =>
        var p := db.payments[i];
        if p.status == Paid && p.paidAt.None? then Step(WritePayment(db, i, p.(paidAt := Some(now))), Shown, [])
        else Step(db, Shown, [])
  }

  /** Showing the page again changes nothing, whatever the clock says. */
  lemma SuccessPageIdempotent(db: Db, aid: nat, now1: Instant, now2: Instant)
    requires Valid(db)
    ensures var r1 := AdmissionSuccess(db, aid, now1);
      AdmissionSuccess(r1.db, aid, now2) == Step(r1.db, r1.outcome, [])
  {
    var r1 := AdmissionSuccess(db, aid, now1);
    Checkout.SameOwnersSameLookup(db, r1.db, aid);
  }

  /** When every Paid payment already carries a `paid_at`, as the payment
      views and the admin action leave them, the page writes nothing. */
  lemma StampedPaymentsUntouched(db: Db, aid: nat, now: Instant)
    requires Valid(db)
    requires forall j :: 0 <= j < |db.payments| && db.payments[j].status == Paid ==> db.payments[j].paidAt.Some?
    ensures AdmissionSuccess(db, aid, now).db == db
  {
  }
}

=== FILE: text.dfy ===
/** The string operations the admissions code borrows from Python: case
    mapping, `strip()`, `str(int)` and `int(str)`. Only ASCII letters, digits
    and whitespace are modelled. */
module Text {
  import opened Common

  predicate IsDigit(c: char) {
    '0' <= c <= '9'
  }

  predicate AllDigits(s: string) {
    forall i :: 0 <= i < |s| ==> IsDigit(s[i])
  }

  /** Every character is below 128. */
  predicate IsAscii(s: string) {
    forall i :: 0 <= i < |s| ==> s[i] < '\U{80}'
  }

  /** The shape `^\d{10}$` accepts. */
  predicate IsTenDigits(s: string) {
    |s| == 10 && AllDigits(s)
  }

  /** Whitespace as `str.isspace()` sees it among the ASCII characters. */
  predicate IsSpace(c: char) {
    c == ' ' || ('\t' <= c <= '\r') || ('\U{1C}' <= c <= '\U{1F}')
  }

  predicate IsZero(c: char) {
    c == '0'
  }

  function UpperChar(c: char): char {
    if 'a' <= c <= 'z' then (c as int - 32) as char else c
  }

  function LowerChar(c: char): char {
    if 'A' <= c <= 'Z' then (c as int + 32) as char else c
  }

  /** `str.upper()` */
  function Upper(s: string): string {
    seq(|s|, i requires 0 <= i < |s| => UpperChar(s[i]))
  }

  /** `str.lower()` */
  function Lower(s: string): string {
    seq(|s|, i requires 0 <= i < |s| => LowerChar(s[i]))
  }

  /** A string that `Upper` leaves alone: the gateway vocabulary is written this way. */
  predicate NoLowerCase(s: string) {
    forall i :: 0 <= i < |s| ==> !('a' <= s[i] <= 'z')
  }

  lemma UpperKeepsUpperCase(s: string)
    requires NoLowerCase(s)
    ensures Upper(s) == s
  {
  }

  lemma UpperIdempotent(s: string)
    ensures Upper(Upper(s)) == Upper(s)
  {
  }

  /** Drops the longest prefix whose characters all satisfy `p`. */
  function TrimLeftWhile(s: string, p: char -> bool): (r: string)
    ensures |r| <= |s| && r == s[|s| - |r|..]
    ensures |r| > 0 ==> !p(r[0])
    ensures forall i :: 0 <= i < |s| - |r| ==> p(s[i])
    decreases |s|
  {
    if |s| > 0 && p(s[0]) then
      var t := TrimLeftWhile(s[1..], p);
      assert forall i :: 1 <= i < |s| ==> s[i] == s[1..][i - 1];
      t
    else s
  }

  /** Drops the longest suffix whose characters all satisfy `p`. */
  function TrimRightWhile(s: string, p: char -> bool): (r: string)
    ensures |r| <= |s| && r == s[..|r|]
    ensures |r| > 0 ==> !p(r[|r| - 1])
    ensures forall i :: |r| <= i < |s| ==> p(s[i])
    decreases |s|
  {
    if |s| > 0 && p(s[|s| - 1]) then
      var t := TrimRightWhile(s[..|s| - 1], p);
      assert s[..|s| - 1][..|t|] == s[..|t|];
      assert forall i :: |t| <= i < |s| - 1 ==> s[i] == s[..|s| - 1][i];
      t
    else s
  }

  /** The number of whitespace characters `s` starts with. */
  function LeadingSpaces(s: string): (k: nat)
    ensures k <= |s|
    ensures forall i :: 0 <= i < k ==> IsSpace(s[i])
    ensures k < |s| ==> !IsSpace(s[k])
    decreases |s|
  {
    if |s| > 0 && IsSpace(s[0]) then
      var k := 1 + LeadingSpaces(s[1..]);
      assert forall i :: 1 <= i < |s| ==> s[i] == s[1..][i - 1];
      k
    else 0
  }

  /** `str.strip()` with no argument: the input with its leading whitespace and
      its trailing whitespace cut off, and nothing else removed. */
  function Strip(s: string): (r: string)
    ensures |r| <= |s|
    ensures |r| > 0 ==> !IsSpace(r[0]) && !IsSpace(r[|r| - 1])
    ensures forall c :: c in r ==> c in s
    ensures LeadingSpaces(s) + |r| <= |s| && r == s[LeadingSpaces(s)..][..|r|]
    ensures forall i :: LeadingSpaces(s) + |r| <= i < |s| ==> IsSpace(s[i])
  {
    var t := TrimLeftWhile(s, IsSpace);
    var r := TrimRightWhile(t, IsSpace);
    TrimLeftCutsLeadingSpaces(s);
    SuffixOfSuffix(s, t, r);
    assert |r| > 0 ==> r[0] == t[0];
    r
  }

  /** Trimming the left end removes exactly the leading whitespace. */
  lemma TrimLeftCutsLeadingSpaces(s: string)
    ensures TrimLeftWhile(s, IsSpace) == s[LeadingSpaces(s)..]
  {
    var t := TrimLeftWhile(s, IsSpace);
    var k := LeadingSpaces(s);
    var j := |s| - |t|;
    assert j < |s| ==> !IsSpace(s[j]) by {
      if j < |s| {
        assert t[0] == s[j];
      }
    }
  }

  /** A trailing stretch of `t`, itself a suffix of `s`, is a trailing stretch
      of `s`; `r` is what is left of `t` before it. */
  lemma SuffixOfSuffix(s: string, t: string, r: string)
    requires |t| <= |s| && t == s[|s| - |t|..]
    requires |r| <= |t| && r == t[..|r|]
    requires forall i :: |r| <= i < |t| ==> IsSpace(t[i])
    ensures forall i :: |s| - |t| + |r| <= i < |s| ==> IsSpace(s[i])
    ensures forall c :: c in r ==> c in s
  {
    var k := |s| - |t|;
    forall i | k + |r| <= i < |s|
      ensures IsSpace(s[i])
    {
      assert s[i] == t[i - k];
    }
    forall c | c in r
      ensures c in s
    {
      var j :| 0 <= j < |r| && r[j] == c;
      assert s[k + j] == c;
    }
  }

  /** A string without whitespace at either end is its own `strip()`. */
  lemma {:induction false} StripKeepsTrimmed(s: string)
    requires |s| > 0 ==> !IsSpace(s[0]) && !IsSpace(s[|s| - 1])
    ensures Strip(s) == s
  {
    assert TrimLeftWhile(s, IsSpace) == s;
    assert TrimRightWhile(s, IsSpace) == s;
  }

  lemma StripIdempotent(s: string)
    ensures Strip(Strip(s)) == Strip(s)
  {
    StripKeepsTrimmed(Strip(s));
  }

  function DigitChar(d: nat): char
    requires d < 10
  {
    ('0' as int + d) as char
  }

  /** `str(n)` for a non-negative integer. */
  function ShowNat(n: nat): (r: string)
    ensures |r| > 0 && AllDigits(r)
    ensures n >= 10 ==> r[0] != '0'
    decreases n
  {
    if n < 10 then [DigitChar(n)] else ShowNat(n / 10) + [DigitChar(n % 10)]
  }

  /** Value of a string of decimal digits (leading zeros allowed, as `int()` allows them). */
  function DigitsValue(s: string): nat
    requires AllDigits(s)
    decreases |s|
  {
    if |s| == 0 then 0 else 10 * DigitsValue(s[..|s| - 1]) + (s[|s| - 1] as int - '0' as int)
  }

  lemma {:induction false} ShowNatRoundTrip(n: nat)
    ensures DigitsValue(ShowNat(n)) == n
    decreases n
  {
    if n >= 10 {
      ShowNatRoundTrip(n / 10);
      var s := ShowNat(n / 10) + [DigitChar(n % 10)];
      assert s[..|s| - 1] == ShowNat(n / 10);
    }
  }

  lemma ShowNatInjective(a: nat, b: nat)
    ensures ShowNat(a) == ShowNat(b) ==> a == b
  {
    ShowNatRoundTrip(a);
    ShowNatRoundTrip(b);
  }

  function Pow10(k: nat): nat {
    if k == 0 then 1 else 10 * Pow10(k - 1)
  }

  /** `str(n)` has exactly `k` characters when `n` has `k` decimal digits. */
  lemma {:induction false} ShowNatLength(n: nat, k: nat)
    requires k >= 1 && Pow10(k - 1) <= n < Pow10(k)
    ensures |ShowNat(n)| == k
    decreases k
  {
    if k > 1 {
      assert Pow10(k - 1) == 10 * Pow10(k - 2);
      ShowNatLength(n / 10, k - 1);
    }
  }

  /** Django's `IntegerField` drops a trailing `.0*\s*` before calling `int()`. */
  function DropZeroFraction(s: string): string {
    var t := TrimRightWhile(TrimRightWhile(s, IsSpace), IsZero);
    if |t| > 0 && t[|t| - 1] == '.' then t[..|t| - 1] else s
  }

  /** `int(x)` on a decimal string: surrounding whitespace, an optional sign,
      then at least one digit. */
  function ParseInt(raw: string): Option<int> {
    ReadSigned(Strip(raw))
  }

  /** An optional sign followed by at least one digit, and nothing else. */
  function ReadSigned(s: string): Option<int> {
    if |s| > 0 && (s[0] == '-' || s[0] == '+') then
      var digits := s[1..];
      if |digits| > 0 && AllDigits(digits) then
        var v: int := DigitsValue(digits);
        Some(if s[0] == '-' then -v else v)
      else None
    else if |s| > 0 && AllDigits(s) then Some(DigitsValue(s))
    else None
  }

  /** The value Django's `IntegerField` reads out of a submitted string. */
  function IntegerFieldValue(raw: string): Option<int> {
    ParseInt(DropZeroFraction(raw))
  }

  /** Without a '.', and without trailing whitespace, there is no fraction to drop. */
  lemma KeepsWholeNumber(s: string)
    requires '.' !in s
    requires |s| > 0 ==> !IsSpace(s[|s| - 1])
    ensures DropZeroFraction(s) == s
  {
    var t1 := TrimRightWhile(s, IsSpace);
    assert |t1| == |s|;
    var t := TrimRightWhile(t1, IsZero);
    if |t| > 0 {
      assert t[|t| - 1] == s[|t| - 1];
    }
  }

  lemma ParseIntReadsDigits(d: string)
    requires |d| > 0 && AllDigits(d)
    ensures ParseInt(d) == Some(DigitsValue(d) as int)
  {
    assert IsDigit(d[0]) && IsDigit(d[|d| - 1]);
    StripKeepsTrimmed(d);
  }

  lemma ShowNatHasNoFraction(n: nat)
    ensures DropZeroFraction(ShowNat(n)) == ShowNat(n)
  {
    var s := ShowNat(n);
    assert IsDigit(s[|s| - 1]);
    KeepsWholeNumber(s);
  }

  /** Reading back what `str()` wrote gives the same number. */
  lemma IntegerFieldReadsShowNat(n: nat)
    ensures IntegerFieldValue(ShowNat(n)) == Some(n as int)
  {
    ShowNatHasNoFraction(n);
    ParseIntReadsDigits(ShowNat(n));
    ShowNatRoundTrip(n);
  }
}
